=== FILE: README.md ===
# ai-orchestrator: the code-generation pipeline and the step engine in Dafny

This project models the deterministic layer of the ai-orchestrator repository in Dafny:

- **Fence stripping.** `GenerateComponentStep._strip_fence` removes a Markdown code fence that wraps a completion reply.
- **The code-generation pipeline.** A `CodegenContext` record flows through the `LoadProjectSpecStep`, `GenerateComponentStep` and `WriteGeneratedFileStep` steps. `CodegenTask` runs its step list in order and stops at the first failure.
- **The generic engine.** `Engine` folds steps over a string-keyed context map. The concrete steps are the `LoadFile` and `WriteFile` file steps and the example `UppercaseStep`.
- **Task scaffolding.** `create_task` derives a slug and names from a free-form task name, and refuses to overwrite an existing task or runner.

Python exceptions become constructors of `Results.Error`. A step that may raise returns a `Result`. A run of several steps returns an `Outcome`, which keeps the state left by the steps before a failure next to the error. `CodegenTask.run`, `Engine.run` and the file writes of `generate_task_files` share one fail-fast fold, `Pipeline.Run`.

The file system is a value, `FileStore.Store`: a set of directory paths and a map from file paths to text. Paths are `pathlib`-style: an absolute flag and a list of components (`Paths.Path`). The predicate `FileStore.Consistent` describes stores a real file system could be in. It appears only as a hypothesis of lemmas.

The outside world is passed in as parameters:

- the completion service: `CodegenSteps.Completion`, a function from a request to the reply text or a failure, which it reports as `Upstream` with a message;
- the project-scanning and backup steps, and any step of the caller's own, whose `run` is resolved from its identity: `CodegenTask.Services`; an exception of their own is reported as `Raised` with its kind;
- the text of the files that scaffolding generates: `render`;
- the repository root;
- the process arguments.

The default context keys of `LoadFile` ("input_text") and `WriteFile` ("output_text") are default values of the `FileOps.LoadFile` and `FileOps.WriteFile` constructors. The engine's step list is an immutable sequence, so the snapshot taken at construction cannot change afterwards.

The `ProjectScanningStep` and `BackupExistingFileStep` steps are imported at orchestrator/codegen/task.py lines 7 and 9, but orchestrator/codegen/steps.py does not define them. As written, importing orchestrator/codegen/task.py therefore fails with an `ImportError` at lines 5-12, so no codegen task can be built today. The model keeps the two steps in the default step list as opaque services and does not invent their behaviour, so it describes the code as evidently intended rather than code that runs as it stands.

## Model

| member | source | states |
|---|---|---|
| Text.Strip | orchestrator/codegen/steps.py:71 | `str.strip()`: the result has no whitespace at either end, it is the input with only whitespace around it, and text without outer whitespace is returned unchanged |
| Text.StripIdempotent | orchestrator/codegen/steps.py:80 | stripping a stripped text changes nothing |
| Text.SplitLines | orchestrator/codegen/steps.py:74 | `splitlines()`: no line contains a line boundary, and there are no lines exactly when the text is empty |
| Text.SplitLinesJoin | orchestrator/codegen/steps.py:74-80 | `splitlines` undoes a "\n"-join of boundary-free lines whose last line is not empty |
| Text.SplitJoin | orchestrator/create_task.py:120 | splitting a join of separator-free pieces gives back the pieces |
| Text.Lower | orchestrator/create_task.py:17 | `lower()` on ASCII letters: same length, no upper-case letter left, a character changes exactly when it is an upper-case letter, and it moves to its lower-case partner |
| Text.Upper | tasks/example_task.py:23 | `upper()` on ASCII letters: same length, no lower-case letter left, a character changes exactly when it is a lower-case letter, and it moves to its upper-case partner |
| Text.UpperIdempotent | tasks/example_task.py:23 | upper-casing twice is upper-casing once |
| Text.ReplaceChar | orchestrator/create_task.py:17 | `replace` of one character: same length, the replaced character is gone, every other character is kept |
| Paths.JoinPath | orchestrator/codegen/context.py:14-16 | pathlib's `/`: a relative right side is appended below the left path, and an absolute one replaces it |
| Paths.Parent | orchestrator/codegen/steps.py:90 | `parent` is the path without its last component; the root is its own parent |
| Paths.Parse | orchestrator/steps/file_ops.py:15 | `Path(str)`: absolute exactly when the string starts with "/", and no component is empty, ".", or contains "/" |
| Paths.ParseJoin | orchestrator/steps/file_ops.py:15 | `Path(str)` of names joined by "/" has exactly those names as components, in order, for any number of names |
| Paths.ParseName | orchestrator/create_task.py:26-28 | a single file name without "/" parses to a one-component relative path |
| Paths.ParseTwo | tasks/example_task.py:30-32 | "a/b" parses to the two-component relative path a, b |
| FileStore.ReadText | orchestrator/codegen/steps.py:17 | `read_text`: succeeds exactly on a file and returns its text; a missing path is not-found and a directory is is-a-directory |
| FileStore.MakeDirs | orchestrator/codegen/steps.py:90 | `mkdir(parents=True, exist_ok=True)`: the directory exists afterwards, files are untouched, only it and its ancestors are created, and it fails only at a file on the way |
| FileStore.MakeDirsSucceedsIff | orchestrator/steps/file_ops.py:44 | on a consistent store, `mkdir` succeeds exactly when no component along the path is a file |
| FileStore.MakeDirsKeepsConsistent | orchestrator/steps/file_ops.py:44 | creating directories keeps the store consistent |
| FileStore.WriteText | orchestrator/codegen/steps.py:91 | `write_text`: succeeds exactly when the parent is a directory and the path is not one; the file then holds the text and every other file is as it was |
| FileStore.WriteTextKeepsConsistent | orchestrator/steps/file_ops.py:45 | writing a file keeps the store consistent |
| Pipeline.Run | orchestrator/codegen/task.py:36-38 | the fold: no steps complete at once in the start state; an abort names a step of the list |
| Pipeline.RunAppend | templates/project_skeleton/orchestrator/engine.py:17-18 | running `a + b` is running `b` on what `a` left, and an abort in `a` is the abort of the whole run |
| Pipeline.AbortedIff | orchestrator/codegen/task.py:37-38 | the run aborts at step k with error e exactly when the first k steps complete and step k raises e on their state |
| Pipeline.ReachedPrefixCompleted | orchestrator/codegen/task.py:37-38 | every step that was reached sits after a prefix that completed |
| Pipeline.RunSnoc | orchestrator/codegen/task.py:37-38 | one more step after a prefix either extends the run or aborts it at that step's index |
| CodegenContext.AbsTargetFile | orchestrator/codegen/context.py:14-16 | a relative target sits below the project root with exactly its own components; an absolute target is used as given |
| CodegenContext.EnsureProjectExists | orchestrator/codegen/context.py:18-20 | fails exactly when the project path is not a directory, with a not-found error for it, and returns the context unchanged |
| CodegenContext.EnsureSpecExists | orchestrator/codegen/context.py:22-24 | fails exactly when the spec path is not a regular file, with a not-found error for it, and returns the context unchanged |
| CodegenSteps.DropClosingFence | orchestrator/codegen/steps.py:78-79 | the last line is dropped exactly when, trimmed, it starts with a fence; otherwise every line is kept |
| CodegenSteps.StripFence | orchestrator/codegen/steps.py:70-81 | the result never has outer whitespace, and a reply whose trimmed form does not open with a fence is returned trimmed |
| CodegenSteps.OpenedLines | orchestrator/codegen/steps.py:72-80 | a reply built from lines opening with a fence reduces to the lines after the first, less a closing fence, joined and trimmed |
| CodegenSteps.FencedLines | orchestrator/codegen/steps.py:73-80 | lines fenced at both ends reduce to the lines between the fences, joined and trimmed |
| CodegenSteps.UnclosedLines | orchestrator/codegen/steps.py:76-80 | with no closing fence every line after the first is kept |
| CodegenSteps.FencedBlock | orchestrator/codegen/steps.py:72-80 | an opening line with any language tag, a body and a closing fence reduce to the body joined and trimmed |
| CodegenSteps.UnclosedFence | orchestrator/codegen/steps.py:75-79 | an opening fence line without a closing one loses only the opening line |
| CodegenSteps.FencedTsxExample | orchestrator/codegen/steps.py:73-80 | the reply "```tsx", "A", "B", "```" reduces to "A\nB" |
| CodegenSteps.BuildRequest | orchestrator/codegen/steps.py:54-63 | the request holds the system block, then the user block carrying the spec, the project root and the target, with temperature 0.0 and at most 4096 tokens |
| CodegenSteps.LoadProjectSpec | orchestrator/codegen/steps.py:12-17 | checks the project, then the spec, fails with the first missing one, and on success sets only `specText`, to the spec file's text |
| CodegenSteps.GenerateComponent | orchestrator/codegen/steps.py:28-67 | without a spec it fails before the service is asked; a service failure is passed on; on success only `generatedCode` changes, to the fence-stripped reply |
| CodegenSteps.WriteGeneratedFile | orchestrator/codegen/steps.py:84-91 | without generated code it fails; on success the absolute target holds exactly the generated code, its directory exists, and every other file is unchanged |
| CodegenSteps.WriteGeneratedFileSucceedsIff | orchestrator/codegen/steps.py:89-91 | on a consistent store the write succeeds exactly when the target is a proper path that is not a directory and nothing above it is a file |
| CodegenTask.NewTask | orchestrator/codegen/task.py:16-34 | the three paths are stored, both optional fields start absent, a missing or empty step list means the default five steps, and a non-empty list, which may hold steps of the caller's own, is used as given |
| CodegenTask.RunStep | orchestrator/codegen/task.py:37-38 | the context steps change only the context and the write step only the store, each failing exactly when its step does; a scan, backup or caller's own step yields whatever its service returns for the state |
| CodegenTask.OwnStepRuns | orchestrator/codegen/task.py:21-38 | a task given one step of the caller's own runs it on the fresh context and ends as that step does |
| CodegenTask.RunTask | orchestrator/codegen/task.py:36-38 | an aborted run's steps before the failing one completed in the state it kept, and the failing step raised its error on that state |
| CodegenTask.AbortsAtFirstFailure | orchestrator/codegen/task.py:37-38 | the first step that fails is where the run stops; no later step runs |
| CodegenTask.CompletedStepSucceeded | orchestrator/codegen/task.py:37-38 | in a completed run every step succeeded on the state the steps before it left |
| CodegenTask.DefaultRunWrites | orchestrator/codegen/task.py:28-34 | a completed default run found the project and spec, generated from a loaded spec, and left the generated code in the target file |
| CodegenTask.MissingProjectAbortsFirst | orchestrator/codegen/steps.py:13-14 | without a project directory the run stops at step 0 with a not-found error and the file system untouched |
| CodegenTask.SpecLoaded | orchestrator/codegen/steps.py:13-17 | a first load step on an existing project and spec completes with the spec text loaded |
| CodegenTask.GeneratedAndWritten | orchestrator/codegen/steps.py:59-67 | a completed load-generate-write run got a reply and wrote its fence-stripped form to the target |
| CodegenTask.LoadGenerateWrite | orchestrator/codegen/task.py:36-38 | load, generate and write: a missing spec stops at step 0, a failed completion at step 1 with the spec loaded, and success writes the stripped reply |
| StepBase.AsText | orchestrator/steps/file_ops.py:45 | `str()` of a string is the string and of `None` is "None" |
| Engine.StartContext | templates/project_skeleton/orchestrator/engine.py:16 | the run starts from the empty map exactly when no context or an empty one is given, and otherwise from the given one |
| Engine.Run | templates/project_skeleton/orchestrator/engine.py:15-20 | with no steps the start context comes back unchanged; an abort names a step of the list |
| Engine.RunNoSteps | templates/project_skeleton/orchestrator/engine.py:17-20 | an engine without steps returns the initial context as it was |
| Engine.RunConcat | templates/project_skeleton/orchestrator/engine.py:17-18 | running `s1 ++ s2` on `c` is running `s2` on what `s1` returned; if `s1` fails `s2` never runs |
| Engine.FailsAt | templates/project_skeleton/orchestrator/engine.py:17-18 | the run stops at step k with error e exactly when the steps before k complete and step k raises e |
| FileOps.RunLoadFile | orchestrator/steps/file_ops.py:18-24 | a missing source is not-found and a directory cannot be read, both leaving everything untouched; otherwise the key holds the file's text and every other key is unchanged |
| FileOps.RunWriteFile | orchestrator/steps/file_ops.py:37-46 | a missing key is a key error; otherwise the target holds `str()` of the value, other files are unchanged, and the context comes back unchanged |
| FileOps.WriteFileSucceedsIff | orchestrator/steps/file_ops.py:38-46 | on a consistent store the write succeeds exactly when the key is present and the target can be created |
| FileOps.LoadAfterWrite | orchestrator/steps/file_ops.py:22-23 | loading a file that was just written gives back `str()` of the written value |
| FileOps.WriteThenLoadRestores | orchestrator/steps/file_ops.py:22-45 | writing a string value and loading it back under the same key leaves the context as it was |
| ExampleTask.RunUppercase | tasks/example_task.py:18-25 | fails exactly when "input_text" is missing or None; otherwise "output_text" is the upper-cased `str()` of it and every other key is unchanged |
| ExampleTask.UppercaseTwice | tasks/example_task.py:23 | the output has the input's length, and running the step again changes nothing |
| ExampleTask.OutputIsUpper | tasks/example_task.py:23 | upper-casing the output again changes nothing |
| ExampleTask.InputPathParse | tasks/example_task.py:30 | "examples/input.txt" is the path examples, input.txt |
| ExampleTask.OutputPathParse | tasks/example_task.py:32 | "examples/output.txt" is the path examples, output.txt |
| ExampleTask.ExampleRun | tasks/example_task.py:28-35 | load, upper-case, write in that order: from an empty context the output file holds the upper-cased input, the context holds both texts, and nothing else changes |
| ExampleTask.ExampleMissingInput | tasks/example_task.py:30 | without the input file the engine stops at its first step with a not-found error and writes nothing |
| CreateTask.ToSnakeCase | orchestrator/create_task.py:13-17 | the slug is the trimmed name character by character, with spaces and dashes turned into underscores and lower-cased; it has no space, dash, upper-case letter or outer whitespace and is never longer than the name |
| CreateTask.ToSnakeCaseIdempotent | orchestrator/create_task.py:17 | a slug is its own slug |
| CreateTask.SlugKeepsSlashOut | orchestrator/create_task.py:17 | a name without "/" gives a slug without "/" |
| CreateTask.NamesFor | orchestrator/create_task.py:21-24 | the module is `<slug>_task` and the builder `build_<slug>_engine` |
| CreateTask.NamesCarrySlug | orchestrator/create_task.py:23-24 | the slug can be read back from the module name and from the builder name |
| CreateTask.PlainSlugPaths | orchestrator/create_task.py:26-28 | a slug without "/" names tasks/`<slug>`_task.py, run_`<slug>`.py and examples/`<slug>`_input.txt under the root |
| CreateTask.GenerateTaskFiles | orchestrator/create_task.py:20-106 | an existing task module or runner is refused with the file system untouched; otherwise the two directories and three writes run in order, stopping at the first failure |
| CreateTask.PlainNameCreatesFiles | orchestrator/create_task.py:30-106 | from a root directory, a fresh name creates the two directories and writes all three files, overwriting an existing input file because the guard does not check it |
| CreateTask.TaskName | orchestrator/create_task.py:113-120 | no arguments, or an empty list, falls back to the process arguments; none at all is a usage error; otherwise the arguments joined by single spaces |
| CreateTask.TaskNameSplitsBack | orchestrator/create_task.py:120 | arguments without spaces can be read back from the joined name |
| CreateTask.RunMain | orchestrator/create_task.py:113-121 | a usage error leaves the file system alone; otherwise the joined name is passed on to the generator |

## Left out

- Text.Lower, Text.Upper: only ASCII letters change case. Python's full Unicode case mapping, including mappings that change length, is not modelled.
- Text.Strip, Text.SplitLines: these follow Python's whitespace and line-boundary code points for `str`, with no normalisation.
- File encodings: text is read and written as `string`, and UTF-8 encoding and decoding are not modelled.
- The completion clients (orchestrator/codegen/llm_client.py, orchestrator/llm.py, orchestrator/steps/llm_step.py) are not part of this model. The completion call is an opaque function whose result is the reply or a failure. A timeout, an HTTP error or a malformed reply all become `Upstream` with a message.
- The exact wording of the prompts is left out. The model keeps the message structure, which is the system block and then the user block with the spec, the root and the target. The system text at orchestrator/codegen/steps.py:37 is a plain string, not an f-string, so its `{target_path}` is never filled in. The model's system block therefore carries no parameter.
- The wording of the generated task module, runner and input file (orchestrator/create_task.py:41-101) is a `render` parameter.
- ProjectScanningStep and BackupExistingFileStep have no definition in the repository's steps module. They are opaque functions on the whole state.
- FileStore.MakeDirs: an error reports the file found on the way, not the exact path the operating system names in its message.
- FileStore: permission errors, over-long names, a full disk and other I/O errors are not modelled. Every "succeeds exactly when" contract (`FileStore.ReadText`, `FileStore.WriteText`, `FileStore.MakeDirsSucceedsIff`, `CodegenSteps.WriteGeneratedFileSucceedsIff`, `FileOps.WriteFileSucceedsIff`) describes a file system without them. With such an error, `write_text` can fail after `mkdir` has created directories, and those directories stay behind. The model's failed write discards them.
- Paths.Parse: POSIX paths only. The special leading "//" of `pathlib` and `..` resolution are not modelled. Paths are compared as written: a relative path and the absolute path it resolves to from the working directory are different keys of `FileStore.Store`, and symbolic links are not followed. Every "other files are unchanged" clause holds under that reading.
- `REPO_ROOT` comes from resolving the module's own location; it is a parameter here.
- Console output, the usage message text, the `sys.exit(1)` status, and the `__main__` blocks are not modelled. The model stands for the usage exit with the `Usage` error and leaves the store untouched.
- CodegenTask.RunStep: the steps mutate `self.ctx` and the file system in place. A scan, backup or caller's own step that changes the context or writes a file and then raises would leave that change behind. The model's opaque steps return either a new state or an error, so a failing step is modelled as changing nothing, and an `Aborted` outcome of `CodegenTask.RunTask` holds the state from before that step. The built-in load, generate and write steps raise before changing anything on a consistent store, within the file-system errors the model knows (see the FileStore line).
- Engine.Run: Python mutates the one context dictionary in place, so the caller's dictionary sees partial changes when a step raises. The model returns the state left behind inside the `Aborted` outcome instead.
- The other task configurations (tasks/readme_improver_task.py, tasks/code_explainer_task.py, templates/project_skeleton/tasks/example_task.py), the runners, `run_codegen.py` and orchestrator/create_project.py are outside the modelled core.
- Concurrency: runs are sequential, and concurrent runs on the same target are not modelled.

=== FILE: CodegenContext.dfy ===
/**
 The record shared by the code-generation steps: three paths fixed when the
 task is built and two text fields that start absent and are filled in by
 the steps that load the specification and generate the code.
 */
module CodegenContext {

  import opened Results
  import opened Paths
  import opened FileStore

  datatype Context = Context(
    projectPath: Path,
    specPath: Path,
    targetFile: Path,              // relative to projectPath, e.g. src/App.tsx
    specText: Option<string> := None,
    generatedCode: Option<string> := None
  )

  /** Where the generated file goes: the target file joined onto the project
      root (an absolute target path replaces the root, as in pathlib). */
  function AbsTargetFile(ctx: Context): (p: Path)
    ensures !ctx.targetFile.absolute ==> IsAncestorOrSelf(ctx.projectPath, p)
    ensures !ctx.targetFile.absolute ==> p.parts[|ctx.projectPath.parts|..] == ctx.targetFile.parts
    ensures ctx.targetFile.absolute ==> p == ctx.targetFile
  {
    JoinPath(ctx.projectPath, ctx.targetFile)
  }

  /** Fails with a not-found error exactly when the project root is not a
      directory; on success the context is returned as it was. */
  function EnsureProjectExists(ctx: Context, st: Store): (r: Result<Context>)
    ensures r.Ok? <==> IsDir(st, ctx.projectPath)
    ensures r.Ok? ==> r.value == ctx
    ensures r.Err? ==> r.error == NotFound(ctx.projectPath)
  {
    if !IsDir(st, ctx.projectPath) then Err(NotFound(ctx.projectPath)) else Ok(ctx)
  }

  /** Fails with a not-found error exactly when the spec path is not a
      regular file; on success the context is returned as it was. */
  function EnsureSpecExists(ctx: Context, st: Store): (r: Result<Context>)
    ensures r.Ok? <==> IsFile(st, ctx.specPath)
    ensures r.Ok? ==> r.value == ctx
    ensures r.Err? ==> r.error == NotFound(ctx.specPath)
  {
    if !IsFile(st, ctx.specPath) then Err(NotFound(ctx.specPath)) else Ok(ctx)
  }
}

=== FILE: CodegenSteps.dfy ===
/**
 The three code-generation steps: load the specification, ask the
 completion service for the file and strip a Markdown fence from its reply,
 and write the result over the target file.

 The completion service is a parameter: a function from a request to the
 reply text or to one of the service's failures.
 */
module CodegenSteps {

  import opened Results
  import opened Text
  import opened Paths
  import opened FileStore
  import opened CodegenContext

  /** The Markdown fence marker. */
  const Fence := "```"

  /** Sampling settings of the generation request. */
  const Temperature: real := 0.0
  const MaxTokens: nat := 4096

  /** The two role-tagged blocks sent to the service. The system block is
      fixed text: its `{target_path}` placeholder is never filled in, so it
      carries no parameter. The user block carries the spec text, the project
      root and the target file. */
  datatype Message = SystemRules | UserRequest(specText: string, projectRoot: Path, targetFile: Path)

  datatype Request = Request(messages: seq<Message>, temperature: real, maxTokens: nat)

  /** The opaque completion service; its failures (a timeout, an HTTP
      error, a malformed reply) are `Upstream` errors. */
  type Completion = Request -> Result<string>

  /** Drop the last line when, once trimmed, it starts with a fence. */
  function DropClosingFence(lines: seq<string>): (kept: seq<string>)
    ensures |lines| > 0 && StartsWith(Strip(lines[|lines| - 1]), Fence) ==> kept == lines[..|lines| - 1]
    ensures !(|lines| > 0 && StartsWith(Strip(lines[|lines| - 1]), Fence)) ==> kept == lines
  {
    if |lines| > 0 && StartsWith(Strip(lines[|lines| - 1]), Fence) then lines[..|lines| - 1] else lines
  }

  /** Remove an enclosing Markdown code fence from a reply and trim it. */
  function StripFence(text: string): (r: string)
    ensures NoOuterSpace(r)
    ensures !StartsWith(Strip(text), Fence) ==> r == Strip(text)
  {
    var stripped := Strip(text);
    if !StartsWith(stripped, Fence) then stripped
    else Strip(Join("\n", DropClosingFence(SplitLines(stripped)[1..])))
  }

  /** A reply that is already trimmed and starts with a fence loses its
      first line and, if it is a fence too, its last line. */
  lemma StripFenceOfLines(text: string, xs: seq<string>)
    requires Strip(text) == text && StartsWith(text, Fence) && SplitLines(text) == xs
    ensures |xs| >= 1
    ensures StripFence(text) == Strip(Join("\n", DropClosingFence(xs[1..])))
  {
  }

  /** The last line is dropped when it is a clean fence line. */
  lemma DropFenceLine(lines: seq<string>)
    requires |lines| > 0 && StartsWith(lines[|lines| - 1], Fence) && NoOuterSpace(lines[|lines| - 1])
    ensures DropClosingFence(lines) == lines[..|lines| - 1]
  {
    var last := lines[|lines| - 1];
    assert Strip(last) == last;
  }

  /** A "\n"-join of boundary-free lines, the first opening with a fence
      and the last ending in a non-space, is already trimmed. */
  lemma FenceOpenedTrimmed(xs: seq<string>)
    requires |xs| >= 2 && StartsWith(xs[0], Fence)
    requires var last := xs[|xs| - 1]; last != [] && !IsSpace(last[|last| - 1])
    ensures Strip(Join("\n", xs)) == Join("\n", xs)
  {
    JoinNoOuterSpace(xs);
  }

  /** Such a join opens with the fence of its first line. */
  lemma FenceOpenedStart(xs: seq<string>)
    requires |xs| >= 1 && StartsWith(xs[0], Fence)
    ensures StartsWith(Join("\n", xs), Fence)
  {
    JoinStartsWith(xs, Fence);
  }

  /** Such a join splits back into exactly its lines. */
  lemma FenceOpenedSplit(xs: seq<string>)
    requires |xs| >= 1 && forall k :: 0 <= k < |xs| ==> NoLineBreak(xs[k])
    requires xs[|xs| - 1] != []
    ensures SplitLines(Join("\n", xs)) == xs
  {
    SplitLinesJoin(xs);
  }

  /** A reply whose lines open with a fence reduces to the lines after the
      first, less a closing fence line, joined by "\n" and trimmed. */
  lemma OpenedLines(xs: seq<string>)
    requires |xs| >= 2 && StartsWith(xs[0], Fence)
    requires forall k :: 0 <= k < |xs| ==> NoLineBreak(xs[k])
    requires var last := xs[|xs| - 1]; last != [] && !IsSpace(last[|last| - 1])
    ensures StripFence(Join("\n", xs)) == Strip(Join("\n", DropClosingFence(xs[1..])))
  {
    FenceOpenedTrimmed(xs);
    FenceOpenedStart(xs);
    FenceOpenedSplit(xs);
    StripFenceOfLines(Join("\n", xs), xs);
  }

  /** A clean fence as the last line is the line dropped. */
  lemma ClosedLast(xs: seq<string>)
    requires |xs| >= 2
    requires StartsWith(xs[|xs| - 1], Fence) && NoOuterSpace(xs[|xs| - 1])
    ensures DropClosingFence(xs[1..]) == xs[1..|xs| - 1]
  {
    var lines := xs[1..];
    assert lines[..|lines| - 1] == xs[1..|xs| - 1];
    assert lines[|lines| - 1] == xs[|xs| - 1];
    DropFenceLine(lines);
  }

  /** Lines fenced at both ends: the reply reduces to the lines between the
      fences joined by "\n" and trimmed. */
  lemma FencedLines(xs: seq<string>)
    requires |xs| >= 2 && StartsWith(xs[0], Fence)
    requires forall k :: 0 <= k < |xs| ==> NoLineBreak(xs[k])
    requires StartsWith(xs[|xs| - 1], Fence) && NoOuterSpace(xs[|xs| - 1])
    ensures StripFence(Join("\n", xs)) == Strip(Join("\n", xs[1..|xs| - 1]))
  {
    OpenedLines(xs);
    ClosedLast(xs);
  }

  /** Lines with an opening fence only: the reply reduces to every line
      after the first, joined by "\n" and trimmed. */
  lemma UnclosedLines(xs: seq<string>)
    requires |xs| >= 2 && StartsWith(xs[0], Fence)
    requires forall k :: 0 <= k < |xs| ==> NoLineBreak(xs[k])
    requires var last := xs[|xs| - 1]; last != [] && !IsSpace(last[|last| - 1])
    requires !StartsWith(Strip(xs[|xs| - 1]), Fence)
    ensures StripFence(Join("\n", xs)) == Strip(Join("\n", xs[1..]))
  {
    OpenedLines(xs);
    OpenLast(xs);
  }

  /** A last line that is not a fence is kept. */
  lemma OpenLast(xs: seq<string>)
    requires |xs| >= 2
    requires !StartsWith(Strip(xs[|xs| - 1]), Fence)
    ensures DropClosingFence(xs[1..]) == xs[1..]
  {
    var lines := xs[1..];
    assert lines[|lines| - 1] == xs[|xs| - 1];
  }

  /** A reply fenced on both sides, the opening line possibly carrying a
      language tag, reduces to its inner lines joined by "\n" and trimmed. */
  lemma FencedBlock(open: string, body: seq<string>, close: string)
    requires StartsWith(open, Fence) && NoLineBreak(open)
    requires forall k :: 0 <= k < |body| ==> NoLineBreak(body[k])
    requires StartsWith(close, Fence) && NoLineBreak(close) && NoOuterSpace(close)
    ensures StripFence(Join("\n", [open] + body + [close])) == Strip(Join("\n", body))
  {
    var xs := [open] + body + [close];
    forall k | 0 <= k < |xs|
      ensures NoLineBreak(xs[k])
    {
      if 0 < k < |xs| - 1 {
        assert xs[k] == body[k - 1];
      }
    }
    FencedLines(xs);
    assert xs[1..|xs| - 1] == body;
  }

  /** A reply with an opening fence but no closing one loses only its first
      line: every later line is kept. */
  lemma UnclosedFence(open: string, body: seq<string>)
    requires StartsWith(open, Fence) && NoLineBreak(open)
    requires |body| >= 1 && forall k :: 0 <= k < |body| ==> NoLineBreak(body[k])
    requires var last := body[|body| - 1]; last != [] && !IsSpace(last[|last| - 1])
    requires !StartsWith(Strip(body[|body| - 1]), Fence)
    ensures StripFence(Join("\n", [open] + body)) == Strip(Join("\n", body))
  {
    var xs := [open] + body;
    forall k | 0 <= k < |xs|
      ensures NoLineBreak(xs[k])
    {
      if 0 < k {
        assert xs[k] == body[k - 1];
      }
    }
    assert xs[|xs| - 1] == body[|body| - 1];
    UnclosedLines(xs);
    assert xs[1..] == body;
  }

  /** The example of a `tsx` block with two inner lines. */
  lemma FencedTsxExample()
    ensures StripFence("```tsx\nA\nB\n```") == "A\nB"
  {
    var xs := ["```tsx", "A", "B", "```"];
    ExampleLines(xs);
    FencedLines(xs);
    InnerOfExample();
  }

  lemma ExampleLines(xs: seq<string>)
    requires xs == ["```tsx", "A", "B", "```"]
    ensures Join("\n", xs) == "```tsx\nA\nB\n```"
    ensures |xs| >= 2 && StartsWith(xs[0], Fence)
    ensures forall k :: 0 <= k < |xs| ==> NoLineBreak(xs[k])
    ensures StartsWith(xs[|xs| - 1], Fence) && NoOuterSpace(xs[|xs| - 1])
    ensures xs[1..|xs| - 1] == ["A", "B"]
  {
    ExampleJoin(xs);
    ExampleLineShapes(xs);
  }

  lemma ExampleJoin(xs: seq<string>)
    requires xs == ["```tsx", "A", "B", "```"]
    ensures Join("\n", xs) == "```tsx\nA\nB\n```"
  {
    JoinFour(xs);
  }

  lemma ExampleLineShapes(xs: seq<string>)
    requires xs == ["```tsx", "A", "B", "```"]
    ensures StartsWith(xs[0], Fence)
    ensures forall k :: 0 <= k < |xs| ==> NoLineBreak(xs[k])
    ensures StartsWith(xs[3], Fence) && NoOuterSpace(xs[3])
    ensures xs[1..3] == ["A", "B"]
  {
    assert xs[0][..3] == "```";
    forall k | 0 <= k < |xs|
      ensures NoLineBreak(xs[k])
    {
    }
  }

  lemma InnerOfExample()
    ensures Strip(Join("\n", ["A", "B"])) == "A\nB"
  {
    var inner := ["A", "B"];
    assert inner[1..] == ["B"];
    assert Join("\n", inner) == "A\nB";
    assert NoOuterSpace("A\nB");
  }

  lemma JoinFour(xs: seq<string>)
    requires |xs| == 4
    ensures Join("\n", xs) == xs[0] + "\n" + xs[1] + "\n" + xs[2] + "\n" + xs[3]
  {
    var t2 := xs[2..];
    assert t2[1..] == [xs[3]];
    assert Join("\n", t2) == xs[2] + "\n" + xs[3];
    assert xs[1..][1..] == t2;
    assert Join("\n", xs[1..]) == xs[1] + "\n" + (xs[2] + "\n" + xs[3]);
  }

  /** The request sent for a given spec text. */
  function BuildRequest(ctx: Context, specText: string): (req: Request)
    ensures req.temperature == Temperature && req.maxTokens == MaxTokens
    ensures |req.messages| == 2 && req.messages[0] == SystemRules
    ensures req.messages[1] == UserRequest(specText, ctx.projectPath, ctx.targetFile)
  {
    Request([SystemRules, UserRequest(specText, ctx.projectPath, ctx.targetFile)], Temperature, MaxTokens)
  }

  /** Check the project root, then the spec file, then read the spec into
      `specText`; nothing else in the context changes. */
  function LoadProjectSpec(ctx: Context, st: Store): (r: Result<Context>)
    ensures r.Ok? <==> IsDir(st, ctx.projectPath) && IsFile(st, ctx.specPath)
    ensures !IsDir(st, ctx.projectPath) ==> r == Err(NotFound(ctx.projectPath))
    ensures IsDir(st, ctx.projectPath) && !IsFile(st, ctx.specPath) ==> r == Err(NotFound(ctx.specPath))
    ensures r.Ok? ==> r.value.specText == Some(st.files[ctx.specPath])
    ensures r.Ok? ==> r.value.(specText := ctx.specText) == ctx
  {
    var c0 :- EnsureProjectExists(ctx, st);
    var c1 :- EnsureSpecExists(c0, st);
    Ok(c1.(specText := Some(st.files[c1.specPath])))
  }

  /** Ask the service for the file and keep its reply with any fence
      removed in `generatedCode`; without a loaded spec it fails before the
      service is asked. */
  function GenerateComponent(ctx: Context, complete: Completion): (r: Result<Context>)
    ensures ctx.specText.None? ==> r == Err(NotLoaded("spec_text"))
    ensures ctx.specText.Some? ==>
              var reply := complete(BuildRequest(ctx, ctx.specText.value));
              && (reply.Err? ==> r == Err(reply.error))
              && (reply.Ok? ==> r.Ok? && r.value.generatedCode == Some(StripFence(reply.value)))
    ensures r.Ok? ==> r.value.(generatedCode := ctx.generatedCode) == ctx
  {
    if ctx.specText.None? then Err(NotLoaded("spec_text"))
    else
      var code :- complete(BuildRequest(ctx, ctx.specText.value));
      Ok(ctx.(generatedCode := Some(StripFence(code))))
  }

  /** Create the target's directory and overwrite the target with the
      generated code; without generated code it fails and writes nothing. */
  function WriteGeneratedFile(ctx: Context, st: Store): (r: Result<Store>)
    ensures ctx.generatedCode.None? ==> r == Err(NotLoaded("generated_code"))
    ensures r.Ok? ==> ctx.generatedCode.Some?
    ensures r.Ok? ==> var target := AbsTargetFile(ctx);
              && target in r.value.files && r.value.files[target] == ctx.generatedCode.value
              && r.value.files.Keys == st.files.Keys + {target}
              && (forall q :: q in st.files && q != target ==> r.value.files[q] == st.files[q])
              && IsDir(r.value, Parent(target))
  {
    if ctx.generatedCode.None? then Err(NotLoaded("generated_code"))
    else
      var target := AbsTargetFile(ctx);
      var st' :- MakeDirs(st, Parent(target));
      WriteText(st', target, ctx.generatedCode.value)
  }

  /** In a consistent store the write succeeds exactly when the target is
      a proper path that is not a directory and nothing above it is a file. */
  lemma WriteGeneratedFileSucceedsIff(ctx: Context, st: Store)
    requires Consistent(st) && ctx.generatedCode.Some?
    ensures var target := AbsTargetFile(ctx);
            WriteGeneratedFile(ctx, st).Ok? <==>
              && target.parts != []
              && target !in st.dirs
              && forall a :: IsAncestorOrSelf(a, Parent(target)) ==> a !in st.files
  {
    var target := AbsTargetFile(ctx);
    MakeDirsSucceedsIff(st, Parent(target));
    if target.parts != [] {
      assert !IsAncestorOrSelf(target, Parent(target));
    }
  }
}

=== FILE: CodegenTask.dfy ===
/**
 `CodegenTask`: a context built from three paths and a list of steps run in
 order over it, stopping at the first step that fails.

 The project-scanning and backup steps are named by the task but their code
 is not part of this model; they are opaque services on the whole state,
 passed in with the completion service.
 */
module CodegenTask {

  import opened Results
  import opened Paths
  import opened FileStore
  import opened CodegenContext
  import opened CodegenSteps
  import Pipeline

  /** The step kinds a codegen task can list. Any object with a `run`
      method is accepted as a step; a step of the caller's own is `Custom`,
      named by an identity that the services resolve to its behaviour. */
  datatype Step = LoadSpecStep | ScanStep | GenerateStep | BackupStep | WriteStep | Custom(id: nat)

  /** What the steps read and change: the shared context and the file system. */
  datatype State = State(ctx: Context, store: Store)

  /** The collaborators whose code is not part of this model. An exception
      of an opaque or caller's own step is a `Raised` error. */
  datatype Services = Services(
    complete: Completion,
    scan: State -> Result<State>,
    backup: State -> Result<State>,
    custom: (nat, State) -> Result<State>
  )

  /** Load, scan, generate, back up, write. */
  const DefaultSteps: seq<Step> := [LoadSpecStep, ScanStep, GenerateStep, BackupStep, WriteStep]

  datatype Task = Task(ctx: Context, steps: seq<Step>)

  /** `CodegenTask(project_path, spec_path, target_file, steps)`: a missing or
      empty step list falls back to the default five steps. */
  function NewTask(projectPath: Path, specPath: Path, targetFile: Path, steps: Option<seq<Step>>): (t: Task)
    ensures t.ctx.projectPath == projectPath && t.ctx.specPath == specPath && t.ctx.targetFile == targetFile
    ensures t.ctx.specText.None? && t.ctx.generatedCode.None?
    ensures steps.None? || steps.value == [] ==> t.steps == DefaultSteps
    ensures steps.Some? && steps.value != [] ==> t.steps == steps.value
    ensures t.steps != []
  {
    var chosen := if steps.Some? && steps.value != [] then steps.value else DefaultSteps;
    Task(Context(projectPath, specPath, targetFile), chosen)
  }

  /** One step on the state: the context steps change only the context, the
      write step changes only the store, the opaque steps may change either. */
  function RunStep(sv: Services, step: Step, s: State): (r: Result<State>)
    ensures step == LoadSpecStep ==>
              (r.Ok? <==> LoadProjectSpec(s.ctx, s.store).Ok?) &&
              (r.Ok? ==> r.value == State(LoadProjectSpec(s.ctx, s.store).value, s.store))
    ensures step == GenerateStep ==>
              (r.Ok? <==> GenerateComponent(s.ctx, sv.complete).Ok?) &&
              (r.Ok? ==> r.value == State(GenerateComponent(s.ctx, sv.complete).value, s.store))
    ensures step == WriteStep ==>
              (r.Ok? <==> WriteGeneratedFile(s.ctx, s.store).Ok?) &&
              (r.Ok? ==> r.value == State(s.ctx, WriteGeneratedFile(s.ctx, s.store).value))
    ensures step == ScanStep ==> r == sv.scan(s)
    ensures step == BackupStep ==> r == sv.backup(s)
    ensures step.Custom? ==> r == sv.custom(step.id, s)
  {
    match step
    case LoadSpecStep =>
      var c :- LoadProjectSpec(s.ctx, s.store);
      Ok(s.(ctx := c))
    case ScanStep => sv.scan(s)
    case GenerateStep =>
      var c :- GenerateComponent(s.ctx, sv.complete);
      Ok(s.(ctx := c))
    case BackupStep => sv.backup(s)
    case WriteStep =>
      var st :- WriteGeneratedFile(s.ctx, s.store);
      Ok(s.(store := st))
    case Custom(id) => sv.custom(id, s)
  }

  function Exec(sv: Services): (Step, State) -> Result<State> {
    (step, s) => RunStep(sv, step, s)
  }

  /** `CodegenTask.run` on a file system: every step once, in order, on the
      one shared context; the first failure ends the run and keeps what the
      steps before it did. */
  function RunTask(sv: Services, task: Task, store: Store): (o: Outcome<State>)
    ensures task.steps == [] ==> o == Completed(State(task.ctx, store))
    ensures o.Aborted? ==>
              && o.done < |task.steps|
              && Pipeline.Run(task.steps[..o.done], Exec(sv), State(task.ctx, store)) == Completed(o.state)
              && RunStep(sv, task.steps[o.done], o.state) == Err(o.error)
  {
    var o := Pipeline.Run(task.steps, Exec(sv), State(task.ctx, store));
    if o.Aborted? then
      Pipeline.AbortedIff(task.steps, Exec(sv), State(task.ctx, store), o.done, o.state, o.error);
      o
    else
      o
  }

  /** A task given a step of the caller's own runs that step, and only it,
      on the fresh context: its result is the run's result. */
  lemma OwnStepRuns(sv: Services, projectPath: Path, specPath: Path, targetFile: Path, id: nat, store: Store)
    ensures var task := NewTask(projectPath, specPath, targetFile, Some([Custom(id)]));
            var s := State(task.ctx, store);
            RunTask(sv, task, store) ==
              match sv.custom(id, s)
              case Ok(u) => Completed(u)
              case Err(e) => Aborted(s, 0, e)
  {
    var task := NewTask(projectPath, specPath, targetFile, Some([Custom(id)]));
    assert task.steps[..0] == [] && task.steps[..1] == task.steps;
    Pipeline.RunSnoc(task.steps, Exec(sv), State(task.ctx, store), 0);
  }

  /** Conversely, a run whose first `k` steps complete and whose step `k`
      fails aborts exactly there. */
  lemma AbortsAtFirstFailure(sv: Services, task: Task, store: Store, k: nat, t: State, e: Error)
    requires k < |task.steps|
    requires Pipeline.Run(task.steps[..k], Exec(sv), State(task.ctx, store)) == Completed(t)
    requires RunStep(sv, task.steps[k], t) == Err(e)
    ensures RunTask(sv, task, store) == Aborted(t, k, e)
  {
    Pipeline.AbortedIff(task.steps, Exec(sv), State(task.ctx, store), k, t, e);
  }

  /** A step of a completed run succeeded on the state the steps before it
      left. */
  lemma CompletedStepSucceeded(sv: Services, steps: seq<Step>, s: State, k: nat)
    requires k < |steps| && Pipeline.Run(steps, Exec(sv), s).Completed?
    ensures Pipeline.Run(steps[..k], Exec(sv), s).Completed?
    ensures RunStep(sv, steps[k], Pipeline.Run(steps[..k], Exec(sv), s).state).Ok?
  {
    Pipeline.ReachedPrefixCompleted(steps, Exec(sv), s, k + 1);
    Pipeline.RunSnoc(steps, Exec(sv), s, k);
  }

  /** A completed default run found the project and the spec, generated the
      code from a loaded spec, and left the generated code in the target
      file. */
  lemma DefaultRunWrites(sv: Services, task: Task, store: Store)
    requires task.steps == DefaultSteps
    ensures var o := RunTask(sv, task, store);
            o.Completed? ==>
              && IsDir(store, task.ctx.projectPath) && IsFile(store, task.ctx.specPath)
              && (var g := Pipeline.Run(DefaultSteps[..2], Exec(sv), State(task.ctx, store)).state;
                  g.ctx.specText.Some? && sv.complete(BuildRequest(g.ctx, g.ctx.specText.value)).Ok?)
              && (var t := o.state;
                  && t.ctx.generatedCode.Some?
                  && AbsTargetFile(t.ctx) in t.store.files
                  && t.store.files[AbsTargetFile(t.ctx)] == t.ctx.generatedCode.value)
  {
    var s := State(task.ctx, store);
    var o := RunTask(sv, task, store);
    if o.Completed? {
      CompletedStepSucceeded(sv, DefaultSteps, s, 0);
      assert DefaultSteps[..0] == [];
      CompletedStepSucceeded(sv, DefaultSteps, s, 2);
      CompletedStepSucceeded(sv, DefaultSteps, s, 4);
      var w := Pipeline.Run(DefaultSteps[..4], Exec(sv), s).state;
      Pipeline.RunSnoc(DefaultSteps, Exec(sv), s, 4);
      assert DefaultSteps[..5] == DefaultSteps;
      assert o.state == RunStep(sv, WriteStep, w).value;
    }
  }

  /** Without a project directory, the run stops at the first step with a
      not-found error for the project root, before the file system is
      touched. */
  lemma MissingProjectAbortsFirst(sv: Services, task: Task, store: Store)
    requires task.steps != [] && task.steps[0] == LoadSpecStep
    requires !IsDir(store, task.ctx.projectPath)
    ensures RunTask(sv, task, store) == Aborted(State(task.ctx, store), 0, NotFound(task.ctx.projectPath))
  {
    assert task.steps[..0] == [];
    AbortsAtFirstFailure(sv, task, store, 0, State(task.ctx, store), NotFound(task.ctx.projectPath));
  }

  const LoadGenerateWriteSteps: seq<Step> := [LoadSpecStep, GenerateStep, WriteStep]

  /** A task of just load, generate and write, built fresh: a missing spec
      stops it at step 0, a failed completion at step 1 with the spec
      loaded, and a completed run leaves the fence-stripped reply in the
      target file. */
  lemma LoadGenerateWrite(sv: Services, projectPath: Path, specPath: Path, targetFile: Path, store: Store)
    ensures var task := NewTask(projectPath, specPath, targetFile, Some(LoadGenerateWriteSteps));
            var o := RunTask(sv, task, store);
            && (IsDir(store, projectPath) && !IsFile(store, specPath) ==>
                  o == Aborted(State(task.ctx, store), 0, NotFound(specPath)))
            && (IsDir(store, projectPath) && IsFile(store, specPath) ==>
                  var loaded := task.ctx.(specText := Some(store.files[specPath]));
                  var reply := sv.complete(BuildRequest(loaded, store.files[specPath]));
                  && (reply.Err? ==> o == Aborted(State(loaded, store), 1, reply.error))
                  && (o.Completed? ==>
                        reply.Ok? &&
                        o.state.store.files[AbsTargetFile(task.ctx)] == StripFence(reply.value)))
  {
    var task := NewTask(projectPath, specPath, targetFile, Some(LoadGenerateWriteSteps));
    if IsDir(store, projectPath) {
      if !IsFile(store, specPath) {
        assert task.steps[..0] == [];
        AbortsAtFirstFailure(sv, task, store, 0, State(task.ctx, store), NotFound(specPath));
      } else {
        SpecLoaded(sv, task, store);
        var loaded := task.ctx.(specText := Some(store.files[specPath]));
        var reply := sv.complete(BuildRequest(loaded, store.files[specPath]));
        if reply.Err? {
          AbortsAtFirstFailure(sv, task, store, 1, State(loaded, store), reply.error);
        }
        if RunTask(sv, task, store).Completed? {
          GeneratedAndWritten(sv, task, store);
        }
      }
    }
  }

  /** The load step of a fresh task reads the spec into the context. */
  lemma SpecLoaded(sv: Services, task: Task, store: Store)
    requires |task.steps| >= 1 && task.steps[0] == LoadSpecStep
    requires IsDir(store, task.ctx.projectPath) && IsFile(store, task.ctx.specPath)
    ensures Pipeline.Run(task.steps[..1], Exec(sv), State(task.ctx, store)) ==
              Completed(State(task.ctx.(specText := Some(store.files[task.ctx.specPath])), store))
  {
    assert task.steps[..0] == [];
    Pipeline.RunSnoc(task.steps, Exec(sv), State(task.ctx, store), 0);
  }

  /** A completed load-generate-write run wrote the fence-stripped reply. */
  lemma GeneratedAndWritten(sv: Services, task: Task, store: Store)
    requires task.steps == LoadGenerateWriteSteps
    requires IsDir(store, task.ctx.projectPath) && IsFile(store, task.ctx.specPath)
    requires RunTask(sv, task, store).Completed?
    ensures var loaded := task.ctx.(specText := Some(store.files[task.ctx.specPath]));
            var reply := sv.complete(BuildRequest(loaded, store.files[task.ctx.specPath]));
            && reply.Ok?
            && RunTask(sv, task, store).state.store.files[AbsTargetFile(task.ctx)] == StripFence(reply.value)
  {
    var s := State(task.ctx, store);
    var loaded := task.ctx.(specText := Some(store.files[task.ctx.specPath]));
    SpecLoaded(sv, task, store);
    CompletedStepSucceeded(sv, task.steps, s, 1);
    var reply := sv.complete(BuildRequest(loaded, store.files[task.ctx.specPath]));
    var generated := loaded.(generatedCode := Some(StripFence(reply.value)));
    Pipeline.RunSnoc(task.steps, Exec(sv), s, 1);
    assert Pipeline.Run(task.steps[..2], Exec(sv), s) == Completed(State(generated, store));
    Pipeline.RunSnoc(task.steps, Exec(sv), s, 2);
    assert task.steps[..3] == task.steps;
    assert AbsTargetFile(generated) == AbsTargetFile(task.ctx);
  }
}

=== FILE: CreateTask.dfy ===
/**
 Task scaffolding: a free-form task name becomes a snake-case slug, the
 slug names a task module, a builder function and three files, and the
 files are created unless the task or its runner already exists.

 The repository root is a parameter, and so is the text of each generated
 file (`render`): only the file names and the order of the effects are
 modelled.
 */
module CreateTask {

  import opened Results
  import opened Text
  import opened Paths
  import opened FileStore
  import Pipeline

  /** The slug's image of one character of the trimmed name. */
  function SnakeChar(c: char): char {
    if c == ' ' || c == '-' then '_' else LowerChar(c)
  }

  /** `to_snake_case(name)`: trim, turn spaces and dashes into underscores,
      lower-case. */
  function ToSnakeCase(name: string): (slug: string)
    ensures |slug| == |Strip(name)| <= |name|
    ensures forall i :: 0 <= i < |slug| ==> slug[i] == SnakeChar(Strip(name)[i])
    ensures ' ' !in slug && '-' !in slug
    ensures forall i :: 0 <= i < |slug| ==> !IsAsciiUpper(slug[i])
    ensures NoOuterSpace(slug)
  {
    var t := Strip(name);
    var slug := Lower(ReplaceChar(ReplaceChar(t, ' ', '_'), '-', '_'));
    SnakePointwise(t);
    SnakeShape(t, slug);
    StrippedNoLonger(name);
    slug
  }

  /** The three string passes of `to_snake_case` act character by character. */
  lemma SnakePointwise(t: string)
    ensures var slug := Lower(ReplaceChar(ReplaceChar(t, ' ', '_'), '-', '_'));
            |slug| == |t| && forall i :: 0 <= i < |t| ==> slug[i] == SnakeChar(t[i])
  {
  }

  /** What a character-by-character slug of trimmed text looks like. */
  lemma SnakeShape(t: string, slug: string)
    requires NoOuterSpace(t)
    requires |slug| == |t| && forall i :: 0 <= i < |t| ==> slug[i] == SnakeChar(t[i])
    ensures ' ' !in slug && '-' !in slug
    ensures forall i :: 0 <= i < |slug| ==> !IsAsciiUpper(slug[i])
    ensures NoOuterSpace(slug)
  {
    forall i | 0 <= i < |slug|
      ensures slug[i] != ' ' && slug[i] != '-' && !IsAsciiUpper(slug[i])
    {
      assert slug[i] == SnakeChar(t[i]);
    }
  }

  /** `strip` only removes characters. */
  lemma StrippedNoLonger(s: string)
    ensures |Strip(s)| <= |s|
    ensures forall c :: c in Strip(s) ==> c in s
  {
    var a := StripIsSlice(s);
    SliceMembers(s, a, a + |Strip(s)|);
  }

  /** A slug is its own slug. */
  lemma {:induction false} ToSnakeCaseIdempotent(name: string)
    ensures ToSnakeCase(ToSnakeCase(name)) == ToSnakeCase(name)
  {
    var slug := ToSnakeCase(name);
    assert Strip(slug) == slug;
    var again := ToSnakeCase(slug);
    assert |again| == |slug|;
    forall i | 0 <= i < |slug|
      ensures again[i] == slug[i]
    {
      assert slug[i] != ' ' && slug[i] != '-';
    }
  }

  /** A name without "/" gives a slug without "/". */
  lemma SlugKeepsSlashOut(name: string)
    requires '/' !in name
    ensures '/' !in ToSnakeCase(name)
  {
    var t := Strip(name);
    var slug := ToSnakeCase(name);
    StrippedNoLonger(name);
    forall i | 0 <= i < |slug|
      ensures slug[i] != '/'
    {
      assert t[i] in t;
      SnakeCharKeepsSlash(t[i]);
    }
  }

  lemma SnakeCharKeepsSlash(c: char)
    requires c != '/'
    ensures SnakeChar(c) != '/'
  {
  }

  /** The names derived from one slug. */
  datatype Names = Names(slug: string, taskModule: string, builder: string)

  /** The slug, `<slug>_task` and `build_<slug>_engine`. */
  function NamesFor(raw: string): (n: Names)
    ensures n.slug == ToSnakeCase(raw)
    ensures n.taskModule == n.slug + "_task"
    ensures n.builder == "build_" + n.slug + "_engine"
  {
    var slug := ToSnakeCase(raw);
    Names(slug, slug + "_task", "build_" + slug + "_engine")
  }

  /** The slug can be read back from the module name and from the builder
      name. */
  lemma NamesCarrySlug(raw: string)
    ensures var n := NamesFor(raw);
            && n.taskModule[..|n.taskModule| - 5] == n.slug
            && n.builder[6..|n.builder| - 7] == n.slug
  {
    var n := NamesFor(raw);
    Between("", n.slug, "_task");
    Between("build_", n.slug, "_engine");
    assert "" + n.slug + "_task" == n.taskModule;
  }

  /** The middle of `p + a + q` is `a`. */
  lemma Between(p: string, a: string, q: string)
    ensures var s := p + a + q; s[|p|..|s| - |q|] == a
  {
  }

  function TasksDir(root: Path): Path {
    JoinPath(root, Path(false, ["tasks"]))
  }

  function ExamplesDir(root: Path): Path {
    JoinPath(root, Path(false, ["examples"]))
  }

  /** `TASKS_DIR / f"{module}.py"`. */
  function TaskFile(root: Path, n: Names): Path {
    JoinPath(TasksDir(root), Parse(n.taskModule + ".py"))
  }

  /** `REPO_ROOT / f"run_{slug}.py"`. */
  function RunnerFile(root: Path, n: Names): Path {
    JoinPath(root, Parse("run_" + n.slug + ".py"))
  }

  /** `EXAMPLES_DIR / f"{slug}_input.txt"`. */
  function InputFile(root: Path, n: Names): Path {
    JoinPath(ExamplesDir(root), Parse(n.slug + "_input.txt"))
  }

  /** A slug without "/" names `tasks/<slug>_task.py`, `run_<slug>.py` and
      `examples/<slug>_input.txt` under the root. */
  lemma PlainSlugPaths(root: Path, n: Names)
    requires '/' !in n.slug && n.taskModule == n.slug + "_task"
    ensures TaskFile(root, n) == Path(root.absolute, root.parts + ["tasks", n.slug + "_task.py"])
    ensures RunnerFile(root, n) == Path(root.absolute, root.parts + ["run_" + n.slug + ".py"])
    ensures InputFile(root, n) == Path(root.absolute, root.parts + ["examples", n.slug + "_input.txt"])
  {
    var t, r, i := n.slug + "_task.py", "run_" + n.slug + ".py", n.slug + "_input.txt";
    assert n.taskModule + ".py" == t;
    NameWithoutSlash(n.slug, "", "_task.py");
    NameWithoutSlash(n.slug, "run_", ".py");
    NameWithoutSlash(n.slug, "", "_input.txt");
    ParseName(t);
    ParseName(r);
    ParseName(i);
    assert root.parts + ["tasks"] + [t] == root.parts + ["tasks", t];
    assert root.parts + ["examples"] + [i] == root.parts + ["examples", i];
  }

  /** A file name built around a slug without "/" is a single component. */
  lemma NameWithoutSlash(slug: string, before: string, after: string)
    requires '/' !in slug && '/' !in before && '/' !in after && |after| >= 2
    ensures var s := before + slug + after; '/' !in s && s != "" && s != "."
  {
    var s := before + slug + after;
    forall i | 0 <= i < |s|
      ensures s[i] != '/'
    {
      if i < |before| {
        assert s[i] == before[i] && before[i] in before;
      } else if i < |before| + |slug| {
        assert s[i] == slug[i - |before|] && slug[i - |before|] in slug;
      } else {
        assert s[i] == after[i - |before| - |slug|] && after[i - |before| - |slug|] in after;
      }
    }
  }

  /** The generated files, whose text is a parameter of the model. */
  datatype Template = TaskModule | Runner | InputText

  /** The effects, in order, once the guard has passed: the two directories,
      then the task module, the runner and the input file. */
  function Plan(root: Path, n: Names, render: (Template, Names) -> string): seq<FileOp> {
    [EnsureDir(TasksDir(root)), EnsureDir(ExamplesDir(root))] +
    [ Put(TaskFile(root, n), render(TaskModule, n)),
      Put(RunnerFile(root, n), render(Runner, n)),
      Put(InputFile(root, n), render(InputText, n)) ]
  }

  /** `generate_task_files(raw)`: refuse when the task module or the runner
      exists, without touching the file system; otherwise carry out the
      plan, stopping at the first effect that fails. */
  function GenerateTaskFiles(raw: string, root: Path, store: Store, render: (Template, Names) -> string): (o: Outcome<Store>)
    ensures var n := NamesFor(raw);
            var task, runner := TaskFile(root, n), RunnerFile(root, n);
            && (Exists(store, task) || Exists(store, runner) ==> o == Aborted(store, 0, TaskExists(task, runner)))
            && (!Exists(store, task) && !Exists(store, runner) ==> o == Pipeline.Run(Plan(root, n, render), Apply, store))
    ensures o.Aborted? ==> o.done < 5
  {
    var n := NamesFor(raw);
    var task, runner := TaskFile(root, n), RunnerFile(root, n);
    if Exists(store, task) || Exists(store, runner) then Aborted(store, 0, TaskExists(task, runner))
    else Pipeline.Run(Plan(root, n, render), Apply, store)
  }

  /** From a root directory whose `tasks` and `examples` entries are not
      files, a name without "/" whose task module and runner do not exist
      creates the two directories and writes the three files; an input file
      that already exists is overwritten, since the guard does not look at
      it. */
  lemma PlainNameCreatesFiles(raw: string, root: Path, store: Store, render: (Template, Names) -> string)
    requires '/' !in raw
    requires IsDir(store, root)
    requires TasksDir(root) !in store.files && ExamplesDir(root) !in store.files
    requires var n := NamesFor(raw);
             !Exists(store, TaskFile(root, n)) && !Exists(store, RunnerFile(root, n)) &&
             InputFile(root, n) !in store.dirs
    ensures var n := NamesFor(raw);
            GenerateTaskFiles(raw, root, store, render) ==
              Completed(Store(store.dirs + {TasksDir(root), ExamplesDir(root)},
                              store.files[TaskFile(root, n) := render(TaskModule, n)]
                                         [RunnerFile(root, n) := render(Runner, n)]
                                         [InputFile(root, n) := render(InputText, n)]))
  {
    var n := NamesFor(raw);
    SlugKeepsSlashOut(raw);
    PlanPlaces(root, n);
    PlanRuns(root, n, store, render);
  }

  /** Where the plan's paths sit for a slug without "/": each file right
      inside its directory, and no file at either directory. */
  lemma PlanPlaces(root: Path, n: Names)
    requires '/' !in n.slug && n.taskModule == n.slug + "_task"
    ensures var tasks, examples := TasksDir(root), ExamplesDir(root);
            var task, runner, input := TaskFile(root, n), RunnerFile(root, n), InputFile(root, n);
            && Parent(tasks) == root && Parent(examples) == root
            && Parent(task) == tasks && Parent(runner) == root && Parent(input) == examples
            && task != tasks && task != examples && input != tasks && input != examples
            && runner != tasks && runner != examples
  {
    PlainSlugPaths(root, n);
    RunnerIsNoDir(root, n.slug);
  }

  /** The plan runs to the end once the paths sit where `PlanPlaces` says. */
  lemma PlanRuns(root: Path, n: Names, store: Store, render: (Template, Names) -> string)
    requires IsDir(store, root)
    requires TasksDir(root) !in store.files && ExamplesDir(root) !in store.files
    requires TaskFile(root, n) !in store.dirs && RunnerFile(root, n) !in store.dirs && InputFile(root, n) !in store.dirs
    requires var tasks, examples := TasksDir(root), ExamplesDir(root);
             var task, runner, input := TaskFile(root, n), RunnerFile(root, n), InputFile(root, n);
             && Parent(task) == tasks && Parent(runner) == root && Parent(input) == examples
             && task != tasks && task != examples && input != tasks && input != examples
             && runner != tasks && runner != examples
    ensures Pipeline.Run(Plan(root, n, render), Apply, store) ==
              Completed(Store(store.dirs + {TasksDir(root), ExamplesDir(root)},
                              store.files[TaskFile(root, n) := render(TaskModule, n)]
                                         [RunnerFile(root, n) := render(Runner, n)]
                                         [InputFile(root, n) := render(InputText, n)]))
  {
    var tasks, examples := TasksDir(root), ExamplesDir(root);
    EnsureDirUnderDir(store, root, "tasks");
    EnsureDirUnderDir(Store(store.dirs + {tasks}, store.files), root, "examples");
    FivePlan(store, tasks, examples, TaskFile(root, n), RunnerFile(root, n), InputFile(root, n),
             render(TaskModule, n), render(Runner, n), render(InputText, n));
  }

  /** The five effects in the plan's shape, with the paths left abstract. */
  lemma FivePlan(store: Store, tasks: Path, examples: Path, task: Path, runner: Path, input: Path,
                 taskText: string, runnerText: string, inputText: string)
    requires MakeDirs(store, tasks) == Ok(Store(store.dirs + {tasks}, store.files))
    requires var s1 := Store(store.dirs + {tasks}, store.files);
             MakeDirs(s1, examples) == Ok(Store(s1.dirs + {examples}, store.files))
    requires task !in store.dirs && runner !in store.dirs && input !in store.dirs
    requires Parent(task) == tasks && Parent(runner) in store.dirs && Parent(input) == examples
    requires task != tasks && task != examples && input != tasks && input != examples
    requires runner != tasks && runner != examples
    ensures Pipeline.Run([EnsureDir(tasks), EnsureDir(examples)] +
                         [Put(task, taskText), Put(runner, runnerText), Put(input, inputText)], Apply, store) ==
              Completed(Store(store.dirs + {tasks, examples}, store.files[task := taskText][runner := runnerText][input := inputText]))
  {
    var dirs := [EnsureDir(tasks), EnsureDir(examples)];
    var puts := [Put(task, taskText), Put(runner, runnerText), Put(input, inputText)];
    var s1 := Store(store.dirs + {tasks}, store.files);
    var s2 := Store(store.dirs + {tasks, examples}, store.files);
    assert s1.dirs + {examples} == s2.dirs;
    Pipeline.RunTwo(dirs, Apply, store, s1, s2);
    ThreePuts(s2, task, runner, input, taskText, runnerText, inputText);
    Pipeline.RunAppend(dirs, puts, Apply, store);
  }

  /** Three writes into existing directories, one after the other. */
  lemma ThreePuts(st: Store, task: Path, runner: Path, input: Path, taskText: string, runnerText: string, inputText: string)
    requires Parent(task) in st.dirs && Parent(runner) in st.dirs && Parent(input) in st.dirs
    requires task !in st.dirs && runner !in st.dirs && input !in st.dirs
    ensures Pipeline.Run([Put(task, taskText), Put(runner, runnerText), Put(input, inputText)], Apply, st) ==
              Completed(Store(st.dirs, st.files[task := taskText][runner := runnerText][input := inputText]))
  {
    var s1 := Store(st.dirs, st.files[task := taskText]);
    var s2 := Store(st.dirs, s1.files[runner := runnerText]);
    var s3 := Store(st.dirs, s2.files[input := inputText]);
    PutInDir(st, task, taskText);
    PutInDir(s1, runner, runnerText);
    PutInDir(s2, input, inputText);
    Pipeline.RunThree([Put(task, taskText), Put(runner, runnerText), Put(input, inputText)], Apply, st, s1, s2, s3);
  }

  /** Writing a file whose parent is a directory and which is not one. */
  lemma PutInDir(st: Store, p: Path, text: string)
    requires Parent(p) in st.dirs && p !in st.dirs
    ensures Apply(Put(p, text), st) == Ok(Store(st.dirs, st.files[p := text]))
  {
  }

  /** `mkdir(parents=True, exist_ok=True)` of an entry of an existing
      directory that is not a file: the store gains that directory. */
  lemma EnsureDirUnderDir(store: Store, root: Path, name: string)
    requires IsDir(store, root) && JoinPath(root, Path(false, [name])) !in store.files
    ensures var d := JoinPath(root, Path(false, [name]));
            MakeDirs(store, d) == Ok(Store(store.dirs + {d}, store.files))
  {
    var d := JoinPath(root, Path(false, [name]));
    assert Parent(d) == root;
    if d !in store.dirs {
      assert CreateDirs(store, Parent(d)) == Ok(store);
    } else {
      assert store.dirs + {d} == store.dirs;
    }
  }

  /** The runner sits directly under the root, so it is neither `tasks` nor
      `examples`. */
  lemma RunnerIsNoDir(root: Path, slug: string)
    ensures var runner := Path(root.absolute, root.parts + ["run_" + slug + ".py"]);
            runner != TasksDir(root) && runner != ExamplesDir(root)
  {
    var name := "run_" + slug + ".py";
    assert name[0] == 'r';
  }

  /** The task name passed on from the command line: the given arguments,
      or the process arguments when none (or an empty list) are given,
      joined with single spaces; no arguments at all is a usage error. */
  function TaskName(argv: Option<seq<string>>, processArgs: seq<string>): (r: Result<string>)
    ensures r.Err? <==> (argv.None? || argv.value == []) && processArgs == []
    ensures r.Err? ==> r.error == Usage
    ensures r.Ok? ==> r.value == Join(" ", if argv.Some? && argv.value != [] then argv.value else processArgs)
  {
    var args := if argv.Some? && argv.value != [] then argv.value else processArgs;
    if args == [] then Err(Usage) else Ok(Join(" ", args))
  }

  /** Arguments without spaces can be read back from the joined name. */
  lemma TaskNameSplitsBack(argv: Option<seq<string>>, processArgs: seq<string>)
    requires TaskName(argv, processArgs).Ok?
    requires var args := if argv.Some? && argv.value != [] then argv.value else processArgs;
             forall k :: 0 <= k < |args| ==> ' ' !in args[k]
    ensures Split(TaskName(argv, processArgs).value, ' ') ==
              if argv.Some? && argv.value != [] then argv.value else processArgs
  {
    var args := if argv.Some? && argv.value != [] then argv.value else processArgs;
    assert " " == [' '];
    SplitJoin(args, ' ');
  }

  /** `main(argv)`: a usage error leaves the file system alone; otherwise the
      joined name goes to `GenerateTaskFiles`. */
  function RunMain(argv: Option<seq<string>>, processArgs: seq<string>, root: Path, store: Store,
                   render: (Template, Names) -> string): (o: Outcome<Store>)
    ensures TaskName(argv, processArgs).Err? ==> o == Aborted(store, 0, Usage)
    ensures TaskName(argv, processArgs).Ok? ==>
              o == GenerateTaskFiles(TaskName(argv, processArgs).value, root, store, render)
  {
    match TaskName(argv, processArgs)
    case Err(e) => Aborted(store, 0, e)
    case Ok(raw) => GenerateTaskFiles(raw, root, store, render)
  }
}

=== FILE: Engine.dfy ===
/**
 The generic `Engine`: a fixed list of steps folded over one context map,
 each step's result being the next step's input. A step that raises ends
 the run; what earlier steps did to the file system stays done.

 The step type is a parameter, and so is the function that runs one step.
 */
module Engine {

  import opened Results
  import opened StepBase
  import opened FileStore
  import Pipeline

  datatype Engine<T> = Engine(steps: seq<T>)

  /** `initial_context or {}`: no context, or an empty one, starts from an
      empty map. */
  function StartContext(initial: Option<Context>): (c: Context)
    ensures c == map[] <==> initial.None? || initial.value == map[]
    ensures initial.Some? ==> c == initial.value
  {
    if initial.Some? then initial.value else map[]
  }

  /** `Engine.run(initial_context)` over a file system. */
  function Run<T>(e: Engine<T>, exec: (T, State) -> Result<State>, initial: Option<Context>, store: Store): (o: Outcome<State>)
    ensures e.steps == [] ==> o == Completed(State(StartContext(initial), store))
    ensures o.Aborted? ==> o.done < |e.steps|
  {
    Pipeline.Run(e.steps, exec, State(StartContext(initial), store))
  }

  /** With no steps the initial context comes back as it was. */
  lemma RunNoSteps<T>(exec: (T, State) -> Result<State>, c: Context, store: Store)
    ensures Run(Engine([]), exec, Some(c), store) == Completed(State(c, store))
  {
  }

  /** Running `s1 ++ s2` is running `s2` on what running `s1` returned; if
      `s1` fails, `s2` never runs. */
  lemma RunConcat<T>(e1: Engine<T>, e2: Engine<T>, exec: (T, State) -> Result<State>, initial: Option<Context>, store: Store)
    ensures Run(Engine(e1.steps + e2.steps), exec, initial, store) ==
              match Run(e1, exec, initial, store)
              case Completed(t) => Pipeline.Later(Run(e2, exec, Some(t.context), t.store), |e1.steps|)
              case Aborted(_, _, _) => Run(e1, exec, initial, store)
  {
    var s := State(StartContext(initial), store);
    Pipeline.RunAppend(e1.steps, e2.steps, exec, s);
    match Run(e1, exec, initial, store)
    case Completed(t) =>
      assert State(StartContext(Some(t.context)), t.store) == t;
    case Aborted(_, _, _) =>
  }

  /** The run stops at step `k` with error `e` exactly when the steps before
      `k` complete and step `k` raises `e` on what they left. */
  lemma FailsAt<T>(e: Engine<T>, exec: (T, State) -> Result<State>, initial: Option<Context>, store: Store, k: nat, t: State, err: Error)
    ensures Run(e, exec, initial, store) == Aborted(t, k, err) <==>
              && k < |e.steps|
              && Run(Engine(e.steps[..k]), exec, initial, store) == Completed(t)
              && exec(e.steps[k], t) == Err(err)
  {
    Pipeline.AbortedIff(e.steps, exec, State(StartContext(initial), store), k, t, err);
  }
}

=== FILE: ExampleTask.dfy ===
/**
 The example task: load `examples/input.txt`, upper-case it, and write the
 result to `examples/output.txt`, as three steps of the generic engine.
 */
module ExampleTask {

  import opened Results
  import opened Text
  import opened Paths
  import opened FileStore
  import opened StepBase
  import opened FileOps
  import Engine
  import Pipeline

  /** `UppercaseStep`: "output_text" becomes the upper-cased `str()` of
      "input_text"; a missing or `None` input is a key error. */
  function RunUppercase(s: State): (r: Result<State>)
    ensures r.Err? <==> "input_text" !in s.context || s.context["input_text"] == NoneValue
    ensures r.Err? ==> r.error == MissingKey("input_text")
    ensures r.Ok? ==> r.value.store == s.store
    ensures r.Ok? ==> "output_text" in r.value.context &&
                      r.value.context["output_text"] == StrValue(Upper(AsText(s.context["input_text"])))
    ensures r.Ok? ==> forall k :: k != "output_text" ==>
                        (k in r.value.context <==> k in s.context) &&
                        (k in s.context ==> r.value.context[k] == s.context[k])
  {
    if "input_text" !in s.context || s.context["input_text"] == NoneValue then Err(MissingKey("input_text"))
    else Ok(s.(context := s.context["output_text" := StrValue(Upper(AsText(s.context["input_text"])))]))
  }

  /** The output has the input's length, and running the step again on its
      own result changes nothing: "input_text" is untouched and upper-casing
      the same text gives the same output. */
  lemma UppercaseTwice(s: State)
    requires RunUppercase(s).Ok?
    ensures var t := RunUppercase(s).value;
            && |AsText(t.context["output_text"])| == |AsText(s.context["input_text"])|
            && RunUppercase(t) == Ok(t)
  {
    var t := RunUppercase(s).value;
    var u := RunUppercase(t).value;
    assert u.context == t.context;
  }

  /** The output text is already upper-case. */
  lemma OutputIsUpper(s: State)
    requires RunUppercase(s).Ok?
    ensures var out := AsText(RunUppercase(s).value.context["output_text"]);
            Upper(out) == out
  {
    UpperIdempotent(AsText(s.context["input_text"]));
  }

  /** The steps the example engine can hold. */
  datatype ExampleStep = Load(load: LoadFile) | Uppercase | Write(write: WriteFile)

  function Exec(step: ExampleStep, s: State): Result<State> {
    match step
    case Load(l) => RunLoadFile(l, s)
    case Uppercase => RunUppercase(s)
    case Write(w) => RunWriteFile(w, s)
  }

  const ExamplesDir := Path(false, ["examples"])
  const InputPath := Path(false, ["examples", "input.txt"])
  const OutputPath := Path(false, ["examples", "output.txt"])

  /** The path strings of the example name these paths. */
  lemma InputPathParse()
    ensures Parse("examples/input.txt") == InputPath
  {
    assert '/' !in "examples" && '/' !in "input.txt";
    ParseTwo("examples", "input.txt");
    assert "examples" + "/" + "input.txt" == "examples/input.txt";
  }

  lemma OutputPathParse()
    ensures Parse("examples/output.txt") == OutputPath
  {
    assert '/' !in "examples" && '/' !in "output.txt";
    ParseTwo("examples", "output.txt");
    assert "examples" + "/" + "output.txt" == "examples/output.txt";
  }

  /** `build_example_engine()`. */
  function BuildExampleEngine(): Engine.Engine<ExampleStep> {
    Engine.Engine([
      Load(LoadFile(InputPath, "input_text")),
      Uppercase,
      Write(WriteFile(OutputPath, "output_text"))
    ])
  }

  /** The example engine loads the input, upper-cases it and writes the
      output, in that order: from an empty context, with the input present,
      the output file ends up holding the upper-cased input, the context
      holds both texts, and no other file changes. */
  lemma ExampleRun(store: Store)
    requires Consistent(store)
    requires IsFile(store, InputPath) && OutputPath !in store.dirs
    ensures var o := Engine.Run(BuildExampleEngine(), Exec, Option.None, store);
            var text := store.files[InputPath];
            && o.Completed?
            && o.state.context == map["input_text" := StrValue(text), "output_text" := StrValue(Upper(text))]
            && o.state.store.files == store.files[OutputPath := Upper(text)]
            && o.state.store.dirs == store.dirs
  {
    var text := store.files[InputPath];
    var steps := BuildExampleEngine().steps;
    var s0 := State(map[], store);
    var s1 := RunLoadFile(LoadFile(InputPath, "input_text"), s0).value;
    assert s1.context == map["input_text" := StrValue(text)];
    var s2 := RunUppercase(s1).value;
    assert s2.context == map["input_text" := StrValue(text), "output_text" := StrValue(Upper(text))];
    assert Parent(OutputPath) == ExamplesDir && Parent(InputPath) == ExamplesDir;
    assert ExamplesDir in store.dirs;
    var s3 := RunWriteFile(WriteFile(OutputPath, "output_text"), s2).value;
    assert s3.store.files == store.files[OutputPath := Upper(text)];
    Pipeline.RunThree(steps, Exec, s0, s1, s2, s3);
  }

  /** Without an input file the engine stops at its first step with a
      not-found error and writes nothing. */
  lemma ExampleMissingInput(store: Store, initial: Option<Context>)
    requires !Exists(store, InputPath)
    ensures Engine.Run(BuildExampleEngine(), Exec, initial, store) ==
              Aborted(State(Engine.StartContext(initial), store), 0, NotFound(InputPath))
  {
  }
}

=== FILE: FileOps.dfy ===
/**
 The two file steps of the engine: `LoadFile` reads a text file into a
 context key and `WriteFile` writes `str()` of a context value to a file,
 creating the file's directory first.
 */
module FileOps {

  import opened Results
  import opened Paths
  import opened FileStore
  import opened StepBase

  /** `LoadFile(source_path, context_key="input_text")`. */
  datatype LoadFile = LoadFile(sourcePath: Path, contextKey: string := "input_text")

  /** `WriteFile(target_path, context_key="output_text")`. */
  datatype WriteFile = WriteFile(targetPath: Path, contextKey: string := "output_text")

  /** A missing source is a not-found error and a directory cannot be read;
      otherwise the key is set to the file's text and nothing else changes. */
  function RunLoadFile(step: LoadFile, s: State): (r: Result<State>)
    ensures !Exists(s.store, step.sourcePath) ==> r == Err(NotFound(step.sourcePath))
    ensures IsDir(s.store, step.sourcePath) && !IsFile(s.store, step.sourcePath) ==> r == Err(IsADirectory(step.sourcePath))
    ensures r.Ok? <==> IsFile(s.store, step.sourcePath)
    ensures r.Ok? ==> r.value.store == s.store
    ensures r.Ok? ==> step.contextKey in r.value.context &&
                      r.value.context[step.contextKey] == StrValue(s.store.files[step.sourcePath])
    ensures r.Ok? ==> forall k :: k != step.contextKey ==>
                        (k in r.value.context <==> k in s.context) &&
                        (k in s.context ==> r.value.context[k] == s.context[k])
  {
    if !Exists(s.store, step.sourcePath) then Err(NotFound(step.sourcePath))
    else
      var text :- ReadText(s.store, step.sourcePath);
      Ok(s.(context := s.context[step.contextKey := StrValue(text)]))
  }

  /** A missing key is a key error and writes nothing; otherwise the target
      holds `str()` of the value, every other file is as it was, and the
      context comes back unchanged. */
  function RunWriteFile(step: WriteFile, s: State): (r: Result<State>)
    ensures step.contextKey !in s.context ==> r == Err(MissingKey(step.contextKey))
    ensures r.Ok? ==> step.contextKey in s.context && r.value.context == s.context
    ensures r.Ok? ==> var target := step.targetPath;
              && target in r.value.store.files
              && r.value.store.files[target] == AsText(s.context[step.contextKey])
              && r.value.store.files.Keys == s.store.files.Keys + {target}
              && (forall q :: q in s.store.files && q != target ==> r.value.store.files[q] == s.store.files[q])
              && IsDir(r.value.store, Parent(target))
  {
    if step.contextKey !in s.context then Err(MissingKey(step.contextKey))
    else
      var st1 :- MakeDirs(s.store, Parent(step.targetPath));
      var st2 :- WriteText(st1, step.targetPath, AsText(s.context[step.contextKey]));
      Ok(s.(store := st2))
  }

  /** On a consistent file system the write succeeds exactly when the key is
      present, the target is a proper path that is not a directory, and
      nothing above it is a file. */
  lemma WriteFileSucceedsIff(step: WriteFile, s: State)
    requires Consistent(s.store)
    ensures var target := step.targetPath;
            RunWriteFile(step, s).Ok? <==>
              && step.contextKey in s.context
              && target.parts != []
              && target !in s.store.dirs
              && forall a :: IsAncestorOrSelf(a, Parent(target)) ==> a !in s.store.files
  {
    var target := step.targetPath;
    MakeDirsSucceedsIff(s.store, Parent(target));
    if target.parts != [] {
      assert !IsAncestorOrSelf(target, Parent(target));
    }
  }

  /** Loading a file that a write step just wrote gives back `str()` of the
      value written. */
  lemma LoadAfterWrite(w: WriteFile, l: LoadFile, s: State)
    requires RunWriteFile(w, s).Ok? && l.sourcePath == w.targetPath
    ensures var s' := RunWriteFile(w, s).value;
            RunLoadFile(l, s').Ok? &&
            RunLoadFile(l, s').value.context[l.contextKey] == StrValue(AsText(s.context[w.contextKey]))
  {
  }

  /** Writing a string value and loading it back under the same key leaves
      the context as it was. */
  lemma WriteThenLoadRestores(w: WriteFile, s: State)
    requires RunWriteFile(w, s).Ok? && s.context[w.contextKey].StrValue?
    ensures var s' := RunWriteFile(w, s).value;
            RunLoadFile(LoadFile(w.targetPath, w.contextKey), s') == Ok(s')
  {
    var s' := RunWriteFile(w, s).value;
    var r := RunLoadFile(LoadFile(w.targetPath, w.contextKey), s');
    assert r.value.context == s'.context;
  }
}

=== FILE: FileStore.dfy ===
/**
 The file system as the core sees it: a set of directories and a map from
 file paths to their text. Reading, `Path.mkdir(parents=True, exist_ok=True)`
 and `Path.write_text` are modelled with the failures they raise.
 */
module FileStore {

  import opened Results
  import opened Paths

  datatype Store = Store(dirs: set<Path>, files: map<Path, string>)

  /** `p.is_dir()`. */
  predicate IsDir(st: Store, p: Path) {
    p in st.dirs
  }

  /** `p.is_file()`. */
  predicate IsFile(st: Store, p: Path) {
    p in st.files
  }

  /** `p.exists()`: a file or a directory. */
  predicate Exists(st: Store, p: Path) {
    IsDir(st, p) || IsFile(st, p)
  }

  /** A store a real file system could be in: nothing is both a file and a
      directory, and everything sits inside an existing directory. */
  ghost predicate Consistent(st: Store) {
    && (forall p :: p in st.files ==> p !in st.dirs)
    && (forall p :: p in st.dirs ==> Parent(p) in st.dirs)
    && (forall p :: p in st.files ==> Parent(p) in st.dirs)
  }

  /** `p.read_text()`. */
  function ReadText(st: Store, p: Path): (r: Result<string>)
    ensures r.Ok? <==> IsFile(st, p)
    ensures r.Ok? ==> r.value == st.files[p]
    ensures !Exists(st, p) ==> r == Err(NotFound(p))
    ensures IsDir(st, p) && !IsFile(st, p) ==> r == Err(IsADirectory(p))
  {
    if p in st.files then Ok(st.files[p])
    else if p in st.dirs then Err(IsADirectory(p))
    else Err(NotFound(p))
  }

  /** The recursive part of `mkdir(parents=True)`: create `p` after its
      missing ancestors, stopping at the first one that already exists. */
  function CreateDirs(st: Store, p: Path): (r: Result<Store>)
    ensures r.Ok? ==> p in r.value.dirs && r.value.files == st.files && st.dirs <= r.value.dirs
    ensures r.Ok? ==> forall d :: d in r.value.dirs && d !in st.dirs ==> IsAncestorOrSelf(d, p)
    ensures r.Err? ==> r.error.NotADirectory? && r.error.path in st.files && IsAncestorOrSelf(r.error.path, p)
    decreases |p.parts|
  {
    if p in st.dirs then Ok(st)
    else if p in st.files then Err(NotADirectory(p))
    else if p.parts == [] then Ok(st.(dirs := st.dirs + {p}))
    else
      var st' :- CreateDirs(st, Parent(p));
      Ok(st'.(dirs := st'.dirs + {p}))
  }

  /** `p.mkdir(parents=True, exist_ok=True)`: an existing directory is fine,
      an existing file at `p` is a `FileExistsError`. */
  function MakeDirs(st: Store, p: Path): (r: Result<Store>)
    ensures r.Ok? ==> IsDir(r.value, p) && r.value.files == st.files && st.dirs <= r.value.dirs
    ensures r.Ok? ==> forall d :: d in r.value.dirs && d !in st.dirs ==> IsAncestorOrSelf(d, p)
    ensures r.Err? ==> (r.error.AlreadyExists? || r.error.NotADirectory?)
    ensures r.Err? ==> r.error.path in st.files && IsAncestorOrSelf(r.error.path, p)
    ensures IsFile(st, p) && !IsDir(st, p) ==> r == Err(AlreadyExists(p))
  {
    if p in st.files && p !in st.dirs then Err(AlreadyExists(p)) else CreateDirs(st, p)
  }

  /** `p.write_text(text)`: the parent directory must exist and `p` must not
      be a directory; an existing file is overwritten. */
  function WriteText(st: Store, p: Path, text: string): (r: Result<Store>)
    ensures r.Ok? <==> IsDir(st, Parent(p)) && !IsDir(st, p)
    ensures r.Ok? ==> r.value.dirs == st.dirs && p in r.value.files && r.value.files[p] == text
    ensures r.Ok? ==> r.value.files.Keys == st.files.Keys + {p}
    ensures r.Ok? ==> forall q :: q in st.files && q != p ==> r.value.files[q] == st.files[q]
  {
    if p in st.dirs then Err(IsADirectory(p))
    else if Parent(p) in st.files && Parent(p) !in st.dirs then Err(NotADirectory(p))
    else if Parent(p) !in st.dirs then Err(NotFound(p))
    else Ok(st.(files := st.files[p := text]))
  }

  /** In a consistent store every ancestor of a directory is a directory. */
  lemma {:induction false} AncestorsOfDir(st: Store, d: Path, a: Path)
    requires Consistent(st) && d in st.dirs && IsAncestorOrSelf(a, d)
    ensures a in st.dirs
    decreases |d.parts|
  {
    if a != d {
      assert d.parts != [];
      assert IsAncestorOrSelf(a, Parent(d)) by {
        assert |a.parts| < |d.parts|;
        assert Parent(d).parts[..|a.parts|] == d.parts[..|a.parts|];
      }
      AncestorsOfDir(st, Parent(d), a);
    }
  }

  /** In a consistent store, `mkdir(parents=True, exist_ok=True)` succeeds
      exactly when no component along the way is a file. */
  lemma {:induction false} MakeDirsSucceedsIff(st: Store, p: Path)
    requires Consistent(st)
    ensures MakeDirs(st, p).Ok? <==> forall a :: IsAncestorOrSelf(a, p) ==> a !in st.files
  {
    CreateDirsSucceedsIff(st, p);
  }

  lemma {:induction false} CreateDirsSucceedsIff(st: Store, p: Path)
    requires Consistent(st)
    ensures CreateDirs(st, p).Ok? <==> forall a :: IsAncestorOrSelf(a, p) ==> a !in st.files
    decreases |p.parts|
  {
    if p in st.dirs {
      forall a | IsAncestorOrSelf(a, p)
        ensures a !in st.files
      {
        AncestorsOfDir(st, p, a);
      }
    } else if p in st.files {
      assert IsAncestorOrSelf(p, p);
    } else if p.parts != [] {
      CreateDirsSucceedsIff(st, Parent(p));
      forall a | IsAncestorOrSelf(a, p) && a != p
        ensures IsAncestorOrSelf(a, Parent(p))
      {
        assert |a.parts| < |p.parts|;
        assert Parent(p).parts[..|a.parts|] == p.parts[..|a.parts|];
      }
      forall a | IsAncestorOrSelf(a, Parent(p))
        ensures IsAncestorOrSelf(a, p)
      {
        assert p.parts[..|a.parts|] == Parent(p).parts[..|a.parts|];
      }
    } else {
      forall a | IsAncestorOrSelf(a, p)
        ensures a == p
      {
      }
    }
  }

  /** Creating directories keeps a store consistent and leaves every
      ancestor of the new directory a directory. */
  lemma {:induction false} MakeDirsKeepsConsistent(st: Store, p: Path)
    requires Consistent(st) && MakeDirs(st, p).Ok?
    ensures Consistent(MakeDirs(st, p).value)
  {
    CreateDirsKeepsConsistent(st, p);
  }

  lemma {:induction false} CreateDirsKeepsConsistent(st: Store, p: Path)
    requires Consistent(st) && CreateDirs(st, p).Ok?
    ensures Consistent(CreateDirs(st, p).value)
    decreases |p.parts|
  {
    if p !in st.dirs && p !in st.files && p.parts != [] {
      CreateDirsKeepsConsistent(st, Parent(p));
    }
  }

  /** Writing a file keeps a store consistent. */
  lemma WriteTextKeepsConsistent(st: Store, p: Path, text: string)
    requires Consistent(st) && WriteText(st, p, text).Ok?
    ensures Consistent(WriteText(st, p, text).value)
  {
  }

  /** One file-system effect in a fixed plan of effects. */
  datatype FileOp = EnsureDir(dir: Path) | Put(path: Path, text: string)

  function Apply(op: FileOp, st: Store): Result<Store> {
    match op
    case EnsureDir(d) => MakeDirs(st, d)
    case Put(p, text) => WriteText(st, p, text)
  }
}

=== FILE: Paths.dfy ===
/**
 POSIX paths as `pathlib` treats them: an absolute flag and the list of
 components. `JoinPath` is pathlib's `/` operator and `Parse` is the
 constructor `PurePosixPath(s)`.
 */
module Paths {

  import opened Text

  datatype Path = Path(absolute: bool, parts: seq<string>)

  /** `p / q`: a relative `q` is appended to `p`; an absolute `q` replaces `p`. */
  function JoinPath(p: Path, q: Path): (r: Path)
    ensures q.absolute ==> r == q
    ensures !q.absolute ==> r.absolute == p.absolute && |r.parts| == |p.parts| + |q.parts|
    ensures !q.absolute ==> r.parts[..|p.parts|] == p.parts && r.parts[|p.parts|..] == q.parts
  {
    if q.absolute then q else Path(p.absolute, p.parts + q.parts)
  }

  /** `p.parent`; the root and "." are their own parent. */
  function Parent(p: Path): (r: Path)
    ensures r.absolute == p.absolute
    ensures p.parts == [] ==> r == p
    ensures p.parts != [] ==> r.parts + [p.parts[|p.parts| - 1]] == p.parts
  {
    if p.parts == [] then p else Path(p.absolute, p.parts[..|p.parts| - 1])
  }

  /** `a` is `p` or one of the directories above it. */
  predicate IsAncestorOrSelf(a: Path, p: Path) {
    a.absolute == p.absolute && |a.parts| <= |p.parts| && p.parts[..|a.parts|] == a.parts
  }

  /** The components pathlib keeps from a "/"-split: empty and "." ones vanish. */
  function Components(pieces: seq<string>): (parts: seq<string>)
    ensures forall k :: 0 <= k < |parts| ==> parts[k] != "" && parts[k] != "."
    ensures |parts| <= |pieces|
  {
    if pieces == [] then []
    else
      var rest := Components(pieces[1..]);
      if pieces[0] == "" || pieces[0] == "." then rest else [pieces[0]] + rest
  }

  /** `PurePosixPath(s)`. */
  function Parse(s: string): (p: Path)
    ensures p.absolute <==> StartsWith(s, "/")
    ensures forall k :: 0 <= k < |p.parts| ==> '/' !in p.parts[k] && p.parts[k] != "" && p.parts[k] != "."
  {
    var parts := Components(Split(s, '/'));
    assert forall k :: 0 <= k < |parts| ==> parts[k] in Split(s, '/') by {
      ComponentsFrom(Split(s, '/'));
    }
    Path(StartsWith(s, "/"), parts)
  }

  lemma {:induction false} ComponentsFrom(pieces: seq<string>)
    ensures forall k :: 0 <= k < |Components(pieces)| ==> Components(pieces)[k] in pieces
  {
    if pieces != [] {
      ComponentsFrom(pieces[1..]);
    }
  }

  /** A single file name without "/" parses to a one-component relative path. */
  lemma ParseName(s: string)
    requires '/' !in s && s != "" && s != "."
    ensures Parse(s) == Path(false, [s])
  {
    IndexOfAbsent(s, '/');
    assert Split(s, '/') == [s];
    assert Components([s]) == [s];
  }

  /** Two file names joined by "/" parse to a two-component relative path. */
  lemma ParseTwo(a: string, b: string)
    requires '/' !in a && a != "" && a != "."
    requires '/' !in b && b != "" && b != "."
    ensures Parse(a + "/" + b) == Path(false, [a, b])
  {
    var xs := [a, b];
    assert xs[1..] == [b];
    assert Join(['/'], xs) == a + "/" + b;
    SplitJoin(xs, '/');
    assert Components([b]) == [b];
    assert Components(xs) == xs;
    assert (a + "/" + b)[0] == a[0];
    assert a[0] != '/' by {
      assert a[0] in a;
    }
  }

  /** `Path` of "/"-joined names: the names come back as the components, in
      order, for any number of them. */
  lemma ParseJoin(xs: seq<string>)
    requires forall k :: 0 <= k < |xs| ==> xs[k] != "" && xs[k] != "." && '/' !in xs[k]
    ensures Parse(Join(['/'], xs)) == Path(false, xs)
  {
    var s := Join(['/'], xs);
    if xs == [] {
      assert Split(s, '/') == [""];
    } else {
      SplitJoin(xs, '/');
      ComponentsKeep(xs);
      assert s[0] != '/' by {
        JoinHead(xs, ['/']);
        assert xs[0][0] in xs[0];
      }
    }
  }

  /** Names that are neither empty nor "." all survive `Components`. */
  lemma {:induction false} ComponentsKeep(xs: seq<string>)
    requires forall k :: 0 <= k < |xs| ==> xs[k] != "" && xs[k] != "."
    ensures Components(xs) == xs
  {
    if xs != [] {
      ComponentsKeep(xs[1..]);
      assert [xs[0]] + xs[1..] == xs;
    }
  }

  /** A join starts with its first piece. */
  lemma JoinHead(xs: seq<string>, sep: string)
    requires |xs| >= 1 && xs[0] != ""
    ensures |Join(sep, xs)| >= 1 && Join(sep, xs)[0] == xs[0][0]
  {
  }
}

=== FILE: Pipeline.dfy ===
/**
 The fail-fast sequential run shared by `CodegenTask.run` and `Engine.run`:
 each step receives the state the previous step left, the first failure
 stops the run, and the state built by the steps before it is kept.
 */
module Pipeline {

  import opened Results

  /** `o` seen from `n` steps earlier: an abort index moves up by `n`. */
  function Later<S>(o: Outcome<S>, n: nat): (r: Outcome<S>)
    ensures r.state == o.state && r.Completed? == o.Completed?
    ensures o.Aborted? ==> r.done == o.done + n && r.error == o.error
  {
    match o
    case Completed(t) => o
    case Aborted(t, d, e) => Aborted(t, d + n, e)
  }

  /** Run `steps` in order from state `s`, stopping at the first failure. */
  function Run<T, S>(steps: seq<T>, exec: (T, S) -> Result<S>, s: S): (o: Outcome<S>)
    ensures steps == [] ==> o == Completed(s)
    ensures o.Aborted? ==> o.done < |steps|
    decreases |steps|
  {
    if steps == [] then Completed(s)
    else
      match exec(steps[0], s)
      case Err(e) => Aborted(s, 0, e)
      case Ok(s') => Later(Run(steps[1..], exec, s'), 1)
  }

  /** Running `a + b` is running `a` and, if it completed, running `b` on
      the state it left; an abort inside `a` is the abort of the whole run. */
  lemma {:induction false} RunAppend<T, S>(a: seq<T>, b: seq<T>, exec: (T, S) -> Result<S>, s: S)
    ensures Run(a + b, exec, s) ==
              match Run(a, exec, s)
              case Completed(t) => Later(Run(b, exec, t), |a|)
              case Aborted(_, _, _) => Run(a, exec, s)
    decreases |a|
  {
    if a == [] {
      assert a + b == b;
      match Run(b, exec, s)
      case Completed(_) =>
      case Aborted(_, _, _) =>
    } else {
      assert (a + b)[0] == a[0];
      assert (a + b)[1..] == a[1..] + b;
      match exec(a[0], s)
      case Err(e) =>
      case Ok(s') =>
        RunAppend(a[1..], b, exec, s');
    }
  }

  /** The run aborts at step `k` with error `e`, leaving state `t`, exactly
      when the first `k` steps complete in `t` and step `k` fails on `t` with `e`. */
  lemma {:induction false} AbortedIff<T, S>(steps: seq<T>, exec: (T, S) -> Result<S>, s: S, k: nat, t: S, e: Error)
    ensures Run(steps, exec, s) == Aborted(t, k, e) <==>
              k < |steps| && Run(steps[..k], exec, s) == Completed(t) && exec(steps[k], t) == Err(e)
  {
    if k < |steps| {
      var pre, rest := steps[..k], steps[k..];
      assert pre + rest == steps;
      RunAppend(pre, rest, exec, s);
      match Run(pre, exec, s)
      case Completed(t') =>
        assert rest[0] == steps[k];
        match exec(steps[k], t') {
          case Err(e') =>
            assert Run(rest, exec, t') == Aborted(t', 0, e');
          case Ok(u) =>
            assert Run(rest, exec, t') == Later(Run(rest[1..], exec, u), 1);
        }
      case Aborted(t', d, e') =>
        assert d < |pre| == k;
    }
  }

  /** A step reached by the run (every step, when it completes) sits after
      a prefix that completed. */
  lemma {:induction false} ReachedPrefixCompleted<T, S>(steps: seq<T>, exec: (T, S) -> Result<S>, s: S, k: nat)
    requires k <= |steps|
    requires Run(steps, exec, s).Completed? || k <= Run(steps, exec, s).done
    ensures Run(steps[..k], exec, s).Completed?
  {
    assert steps == steps[..k] + steps[k..];
    RunAppend(steps[..k], steps[k..], exec, s);
  }

  /** Running one more step after a prefix: the prefix's abort stands, and
      otherwise the next step either extends the run or aborts it at its
      own index. */
  lemma {:induction false} RunSnoc<T, S>(steps: seq<T>, exec: (T, S) -> Result<S>, s: S, k: nat)
    requires k < |steps|
    ensures Run(steps[..k + 1], exec, s) ==
              match Run(steps[..k], exec, s)
              case Completed(t) =>
                (match exec(steps[k], t)
                 case Ok(u) => Completed(u)
                 case Err(e) => Aborted(t, k, e))
              case Aborted(_, _, _) => Run(steps[..k], exec, s)
  {
    assert steps[..k + 1] == steps[..k] + [steps[k]];
    RunAppend(steps[..k], [steps[k]], exec, s);
    match Run(steps[..k], exec, s)
    case Completed(t) =>
      assert [steps[k]][1..] == [];
    case Aborted(_, _, _) =>
  }

  /** Three steps that each succeed complete with the last one's result. */
  lemma RunThree<T, S>(steps: seq<T>, exec: (T, S) -> Result<S>, s0: S, s1: S, s2: S, s3: S)
    requires |steps| == 3
    requires exec(steps[0], s0) == Ok(s1) && exec(steps[1], s1) == Ok(s2) && exec(steps[2], s2) == Ok(s3)
    ensures Run(steps, exec, s0) == Completed(s3)
  {
    assert steps[1..][1..] == steps[2..] && steps[2..][1..] == [];
    assert Run(steps[2..], exec, s2) == Completed(s3);
    assert Run(steps[1..], exec, s1) == Completed(s3);
  }

  /** Two steps that each succeed complete with the second one's result. */
  lemma RunTwo<T, S>(steps: seq<T>, exec: (T, S) -> Result<S>, s0: S, s1: S, s2: S)
    requires |steps| == 2
    requires exec(steps[0], s0) == Ok(s1) && exec(steps[1], s1) == Ok(s2)
    ensures Run(steps, exec, s0) == Completed(s2)
  {
    assert steps[1..][1..] == [];
    assert Run(steps[1..], exec, s1) == Completed(s2);
  }
}

=== FILE: Results.dfy ===
/**
 Failure-carrying values shared by every part of the model.

 The Python code signals failure by raising exceptions; here each exception
 the core raises becomes a constructor of `Error`, a step that may raise
 returns a `Result`, and a run whose earlier steps have already changed
 state returns an `Outcome` that keeps that state next to the failure.
 */
module Results {

  import opened Paths

  /** An optional value, the model of Python's `Optional[...]` / `None`. */
  datatype Option<+T> = None | Some(value: T)

  /** The exceptions raised by the modelled code, one constructor per kind. */
  datatype Error =
    | NotFound(path: Path)          // FileNotFoundError naming a path
    | AlreadyExists(path: Path)     // FileExistsError from mkdir
    | IsADirectory(path: Path)      // IsADirectoryError from open/read
    | NotADirectory(path: Path)     // NotADirectoryError from open
    | TaskExists(task: Path, runner: Path) // refusal in task scaffolding
    | NotLoaded(field: string)             // ValueError: a context field is still None
    | MissingKey(key: string)              // KeyError on the engine's context map
    | Usage                                // no task name given on the command line
    | Upstream(message: string)            // the completion service failed (timeout, HTTP error, malformed reply)
    | Raised(kind: string)                 // any other exception, raised by an opaque or caller's own step

  /** The value of a step that may raise. Usable with `:-`. */
  datatype Result<+T> = Ok(value: T) | Err(error: Error) {

    predicate IsFailure() {
      Err?
    }

    function PropagateFailure<U>(): Result<U>
      requires Err?
    {
      Err(error)
    }

    function Extract(): T
      requires Ok?
    {
      value
    }
  }

  /** How a sequential run ended. `state` is the state the run left behind
      in both cases; on abort, `done` is the number of steps that finished
      before the failing one (so it is also the failing step's index). */
  datatype Outcome<+S> = Completed(state: S) | Aborted(state: S, done: nat, error: Error)
}

=== FILE: StepBase.dfy ===
/**
 The engine's shared context: a string-keyed map of Python values, and the
 state an engine step sees, which is that map together with the file system.
 */
module StepBase {

  import opened FileStore

  /** The values the modelled steps store or read: `None`, a string, or any
      other object, represented by what `str()` makes of it. */
  datatype Value = NoneValue | StrValue(s: string) | Other(str: string)

  /** `str(v)`. */
  function AsText(v: Value): (t: string)
    ensures v.StrValue? ==> t == v.s
    ensures v.NoneValue? ==> t == "None"
  {
    match v
    case NoneValue => "None"
    case StrValue(s) => s
    case Other(str) => str
  }

  type Context = map<string, Value>

  datatype State = State(context: Context, store: Store)
}

=== FILE: Text.dfy ===
/**
 The string operations the core relies on, with Python's meaning:
 `str.strip()`, `str.startswith`, `str.splitlines()`, `sep.join(...)`,
 `str.split(sep)`, and the ASCII part of `str.lower()` / `str.upper()`.
 */
module Text {

  /** Python's `str.isspace()` for one character: the whitespace code points
      that `str.strip()` with no argument removes. */
  predicate IsSpace(c: char) {
    var n := c as int;
    || (0x09 <= n <= 0x0D) || (0x1C <= n <= 0x20)
    || n == 0x85 || n == 0xA0 || n == 0x1680
    || (0x2000 <= n <= 0x200A) || n == 0x2028 || n == 0x2029
    || n == 0x202F || n == 0x205F || n == 0x3000
  }

  /** The code points at which `str.splitlines()` ends a line
      (the pair "\r\n" counts as a single boundary, see `SplitLines`). */
  predicate IsLineBreak(c: char) {
    var n := c as int;
    || (0x0A <= n <= 0x0D) || (0x1C <= n <= 0x1E)
    || n == 0x85 || n == 0x2028 || n == 0x2029
  }

  predicate AllSpace(s: string) {
    forall i :: 0 <= i < |s| ==> IsSpace(s[i])
  }

  predicate NoLineBreak(s: string) {
    forall i :: 0 <= i < |s| ==> !IsLineBreak(s[i])
  }

  /** Neither the first nor the last character is whitespace. */
  predicate NoOuterSpace(s: string) {
    s == [] || (!IsSpace(s[0]) && !IsSpace(s[|s| - 1]))
  }

  /** `s.startswith(prefix)`. */
  predicate StartsWith(s: string, prefix: string) {
    |prefix| <= |s| && s[..|prefix|] == prefix
  }

  /** `s.lstrip()`: the longest suffix of `s` that does not start with whitespace. */
  function TrimStart(s: string): (r: string)
    ensures |r| <= |s| && r == s[|s| - |r|..]
    ensures r == [] || !IsSpace(r[0])
    ensures AllSpace(s[..|s| - |r|])
    decreases |s|
  {
    if s != [] && IsSpace(s[0]) then
      var r := TrimStart(s[1..]);
      TrimStartStep(s, r);
      r
    else
      s
  }

  /** `s.rstrip()`: the longest prefix of `s` that does not end with whitespace. */
  function TrimEnd(s: string): (r: string)
    ensures |r| <= |s| && r == s[..|r|]
    ensures r == [] || !IsSpace(r[|r| - 1])
    ensures AllSpace(s[|r|..])
    decreases |s|
  {
    if s != [] && IsSpace(s[|s| - 1]) then
      var r := TrimEnd(s[..|s| - 1]);
      TrimEndStep(s, r);
      r
    else
      s
  }

  /** One whitespace character in front of a trimmed tail extends the
      removed prefix by one. */
  lemma TrimStartStep(s: string, r: string)
    requires s != [] && IsSpace(s[0])
    requires |r| <= |s| - 1 && r == s[1..][|s| - 1 - |r|..] && AllSpace(s[1..][..|s| - 1 - |r|])
    ensures r == s[|s| - |r|..] && AllSpace(s[..|s| - |r|])
  {
    var tail := s[1..];
    var pre := s[..|s| - |r|];
    assert pre == [s[0]] + tail[..|s| - 1 - |r|];
    forall i | 0 <= i < |pre|
      ensures IsSpace(pre[i])
    {
      if 0 < i {
        assert pre[i] == tail[..|s| - 1 - |r|][i - 1];
      }
    }
  }

  /** One whitespace character after a trimmed head extends the removed
      suffix by one. */
  lemma TrimEndStep(s: string, r: string)
    requires s != [] && IsSpace(s[|s| - 1])
    requires |r| <= |s| - 1 && r == s[..|s| - 1][..|r|] && AllSpace(s[..|s| - 1][|r|..])
    ensures r == s[..|r|] && AllSpace(s[|r|..])
  {
    var head := s[..|s| - 1];
    var post := s[|r|..];
    assert post == head[|r|..] + [s[|s| - 1]];
    forall i | 0 <= i < |post|
      ensures IsSpace(post[i])
    {
      if i < |post| - 1 {
        assert post[i] == head[|r|..][i];
      }
    }
  }

  /** `s` is `r` with whitespace, and only whitespace, around it. */
  ghost predicate FramedBySpace(s: string, r: string) {
    exists a :: 0 <= a <= |s| - |r| && s[a..a + |r|] == r && AllSpace(s[..a]) && AllSpace(s[a + |r|..])
  }

  /** `s.strip()`. */
  function Strip(s: string): (r: string)
    ensures NoOuterSpace(r)
    ensures FramedBySpace(s, r)
    ensures NoOuterSpace(s) ==> r == s
  {
    var t := TrimStart(s);
    var r := TrimEnd(t);
    StripFrame(s, t, r);
    r
  }

  /** The two trims of `Strip` leave the whitespace frame around `r`. */
  lemma StripFrame(s: string, t: string, r: string)
    requires |t| <= |s| && t == s[|s| - |t|..] && AllSpace(s[..|s| - |t|])
    requires |r| <= |t| && r == t[..|r|] && AllSpace(t[|r|..])
    ensures FramedBySpace(s, r)
  {
    var a := |s| - |t|;
    assert s[a..a + |r|] == r;
    assert s[a + |r|..] == t[|r|..];
  }

  /** `strip` returns a slice of its argument. */
  lemma StripIsSlice(s: string) returns (a: nat)
    ensures a + |Strip(s)| <= |s| && s[a..a + |Strip(s)|] == Strip(s)
  {
    var t := TrimStart(s);
    a := |s| - |t|;
    assert s[a..a + |Strip(s)|] == t[..|Strip(s)|];
  }

  /** Every character of a slice occurs in the sequence it was cut from. */
  lemma SliceMembers(s: string, a: nat, b: nat)
    requires a <= b <= |s|
    ensures forall c :: c in s[a..b] ==> c in s
  {
    forall c | c in s[a..b]
      ensures c in s
    {
      var i :| 0 <= i < b - a && s[a..b][i] == c;
      assert s[a + i] == c;
    }
  }

  /** Stripping only ever removes the whitespace frame, so a second strip
      changes nothing. */
  lemma StripIdempotent(s: string)
    ensures Strip(Strip(s)) == Strip(s)
  {
  }

  /** Index of the first line boundary of `s`, or `|s|` when there is none. */
  function LineEnd(s: string): (i: nat)
    ensures i <= |s|
    ensures NoLineBreak(s[..i])
    ensures i < |s| ==> IsLineBreak(s[i])
    decreases |s|
  {
    if s == [] || IsLineBreak(s[0]) then 0
    else
      var i := 1 + LineEnd(s[1..]);
      assert s[..i] == [s[0]] + s[1..][..i - 1];
      i
  }

  /** `s.splitlines()`: the lines of `s` without their boundaries; "\r\n" is
      one boundary, and a boundary at the very end opens no extra line. */
  function SplitLines(s: string): (lines: seq<string>)
    ensures forall k :: 0 <= k < |lines| ==> NoLineBreak(lines[k])
    ensures |lines| == 0 <==> s == []
    decreases |s|
  {
    if s == [] then []
    else
      var i := LineEnd(s);
      if i == |s| then [s]
      else
        var next := if s[i] == '\r' && i + 1 < |s| && s[i + 1] == '\n' then i + 2 else i + 1;
        [s[..i]] + SplitLines(s[next..])
  }

  /** `sep.join(xs)`. */
  function Join(sep: string, xs: seq<string>): string
    decreases |xs|
  {
    if |xs| == 0 then ""
    else if |xs| == 1 then xs[0]
    else xs[0] + sep + Join(sep, xs[1..])
  }

  /** Index of the first `c` in `s`, or `|s|` when there is none. */
  function IndexOf(s: string, c: char): (i: nat)
    ensures i <= |s|
    ensures c !in s[..i]
    ensures i < |s| ==> s[i] == c
    decreases |s|
  {
    if s == [] || s[0] == c then 0
    else
      var i := 1 + IndexOf(s[1..], c);
      assert s[..i] == [s[0]] + s[1..][..i - 1];
      i
  }

  /** `s.split(sep)` for a one-character separator: never empty, and empty
      pieces are kept. */
  function Split(s: string, sep: char): (pieces: seq<string>)
    ensures |pieces| >= 1
    ensures forall k :: 0 <= k < |pieces| ==> sep !in pieces[k]
    decreases |s|
  {
    var i := IndexOf(s, sep);
    if i == |s| then [s] else [s[..i]] + Split(s[i + 1..], sep)
  }

  /** Joining the pieces of a split with the same separator gives back the
      original string. */
  lemma {:induction false} JoinSplit(s: string, sep: char)
    ensures Join([sep], Split(s, sep)) == s
    decreases |s|
  {
    var i := IndexOf(s, sep);
    if i < |s| {
      var rest := Split(s[i + 1..], sep);
      JoinSplit(s[i + 1..], sep);
      assert Split(s, sep) == [s[..i]] + rest;
      assert s == s[..i] + [sep] + s[i + 1..];
    }
  }

  /** Splitting a join of separator-free pieces gives back the pieces. */
  lemma {:induction false} SplitJoin(xs: seq<string>, sep: char)
    requires |xs| >= 1
    requires forall k :: 0 <= k < |xs| ==> sep !in xs[k]
    ensures Split(Join([sep], xs), sep) == xs
    decreases |xs|
  {
    var s := Join([sep], xs);
    if |xs| == 1 {
      IndexOfAbsent(s, sep);
    } else {
      var tail := Join([sep], xs[1..]);
      assert s == xs[0] + [sep] + tail;
      IndexOfAfter(xs[0], sep, tail);
      assert s[|xs[0]| + 1..] == tail;
      SplitJoin(xs[1..], sep);
      assert [xs[0]] + xs[1..] == xs;
    }
  }

  lemma IndexOfAbsent(s: string, c: char)
    requires c !in s
    ensures IndexOf(s, c) == |s|
  {
  }

  /** The first `c` in `x + [c] + y` is the one right after `x` when `x` has none. */
  lemma {:induction false} IndexOfAfter(x: string, c: char, y: string)
    requires c !in x
    ensures IndexOf(x + [c] + y, c) == |x|
    ensures (x + [c] + y)[..|x|] == x
    decreases |x|
  {
    if x != [] {
      assert (x + [c] + y)[1..] == x[1..] + [c] + y;
      IndexOfAfter(x[1..], c, y);
    }
  }

  /** The first line boundary in `x + sep + y` is right after `x` when `x`
      has none. */
  lemma {:induction false} LineEndAfter(x: string, sep: string, y: string)
    requires NoLineBreak(x)
    requires |sep| >= 1 && IsLineBreak(sep[0])
    ensures LineEnd(x + sep + y) == |x|
    ensures (x + sep + y)[..|x|] == x
    decreases |x|
  {
    if x != [] {
      assert (x + sep + y)[1..] == x[1..] + sep + y;
      LineEndAfter(x[1..], sep, y);
    }
  }

  /** `splitlines` undoes a "\n"-join of lines that carry no boundary, as
      long as the last line is not empty (a trailing boundary opens no line). */
  lemma {:induction false} SplitLinesJoin(xs: seq<string>)
    requires forall k :: 0 <= k < |xs| ==> NoLineBreak(xs[k])
    requires xs == [] || xs[|xs| - 1] != []
    ensures SplitLines(Join("\n", xs)) == xs
    decreases |xs|
  {
    if |xs| == 1 {
      assert LineEnd(xs[0]) == |xs[0]|;
    } else if |xs| > 1 {
      var tail := Join("\n", xs[1..]);
      assert Join("\n", xs) == xs[0] + "\n" + tail;
      JoinEnds(xs[1..]);
      assert xs[1..][|xs| - 2] == xs[|xs| - 1];
      SplitLinesCons(xs[0], tail);
      SplitLinesJoin(xs[1..]);
      assert [xs[0]] + xs[1..] == xs;
    }
  }

  /** A boundary-free line, "\n" and more text: the line, then the lines of
      the rest. */
  lemma SplitLinesCons(x: string, tail: string)
    requires NoLineBreak(x) && tail != []
    ensures SplitLines(x + "\n" + tail) == [x] + SplitLines(tail)
  {
    var s := x + "\n" + tail;
    LineEndAfter(x, "\n", tail);
    assert s[|x|] == '\n';
    assert s[|x| + 1..] == tail;
  }

  predicate IsAsciiUpper(c: char) {
    'A' <= c <= 'Z'
  }

  predicate IsAsciiLower(c: char) {
    'a' <= c <= 'z'
  }

  function LowerChar(c: char): char {
    if IsAsciiUpper(c) then (c as int + 32) as char else c
  }

  function UpperChar(c: char): char {
    if IsAsciiLower(c) then (c as int - 32) as char else c
  }

  /** `s.lower()` restricted to ASCII letters: every upper-case ASCII letter
      becomes its lower-case partner and nothing else changes. */
  function Lower(s: string): (r: string)
    ensures |r| == |s|
    ensures forall i :: 0 <= i < |s| ==> !IsAsciiUpper(r[i])
    ensures forall i :: 0 <= i < |s| ==> (r[i] == s[i] <==> !IsAsciiUpper(s[i]))
    ensures forall i :: 0 <= i < |s| && IsAsciiUpper(s[i]) ==> r[i] as int == s[i] as int + 32
  {
    seq(|s|, i requires 0 <= i < |s| => LowerChar(s[i]))
  }

  /** `s.upper()` restricted to ASCII letters: every lower-case ASCII letter
      becomes its upper-case partner and nothing else changes. */
  function Upper(s: string): (r: string)
    ensures |r| == |s|
    ensures forall i :: 0 <= i < |s| ==> !IsAsciiLower(r[i])
    ensures forall i :: 0 <= i < |s| ==> (r[i] == s[i] <==> !IsAsciiLower(s[i]))
    ensures forall i :: 0 <= i < |s| && IsAsciiLower(s[i]) ==> r[i] as int == s[i] as int - 32
  {
    seq(|s|, i requires 0 <= i < |s| => UpperChar(s[i]))
  }

  /** `s.replace(from, to)` for single characters. */
  function ReplaceChar(s: string, from: char, to: char): (r: string)
    ensures |r| == |s|
    ensures from != to ==> from !in r
    ensures forall i :: 0 <= i < |s| && s[i] != from ==> r[i] == s[i]
    ensures forall i :: 0 <= i < |s| && s[i] == from ==> r[i] == to
  {
    seq(|s|, i requires 0 <= i < |s| => if s[i] == from then to else s[i])
  }

  /** Upper-casing twice is upper-casing once. */
  lemma UpperIdempotent(s: string)
    ensures Upper(Upper(s)) == Upper(s)
  {
  }

  /** A "\n"-join of lines starts with the first line and ends with the last. */
  lemma {:induction false} JoinEnds(xs: seq<string>)
    requires |xs| >= 1
    ensures var s := Join("\n", xs); |xs[0]| <= |s| && s[..|xs[0]|] == xs[0]
    ensures var s := Join("\n", xs); |xs[|xs| - 1]| <= |s| && s[|s| - |xs[|xs| - 1]|..] == xs[|xs| - 1]
    decreases |xs|
  {
    if |xs| > 1 {
      JoinEnds(xs[1..]);
      var tail := Join("\n", xs[1..]);
      assert Join("\n", xs) == xs[0] + "\n" + tail;
      assert (xs[0] + "\n" + tail)[..|xs[0]|] == xs[0];
      assert xs[1..][|xs[1..]| - 1] == xs[|xs| - 1];
    }
  }

  /** A "\n"-join of lines whose first line does not start with whitespace
      and whose last line does not end with it is left alone by `strip`. */
  lemma JoinNoOuterSpace(xs: seq<string>)
    requires |xs| >= 1 && xs[0] != [] && xs[|xs| - 1] != []
    requires !IsSpace(xs[0][0]) && !IsSpace(xs[|xs| - 1][|xs[|xs| - 1]| - 1])
    ensures Strip(Join("\n", xs)) == Join("\n", xs)
  {
    JoinEnds(xs);
    var s := Join("\n", xs);
    var last := xs[|xs| - 1];
    assert s[0] == s[..|xs[0]|][0];
    assert s[|s| - 1] == s[|s| - |last|..][|last| - 1];
  }

  /** A "\n"-join of lines starts with whatever its first line starts with. */
  lemma JoinStartsWith(xs: seq<string>, p: string)
    requires |xs| >= 1 && StartsWith(xs[0], p)
    ensures StartsWith(Join("\n", xs), p)
  {
    var text := Join("\n", xs);
    JoinEnds(xs);
    assert text[..|p|] == text[..|xs[0]|][..|p|];
  }
}
